=== FILE: README.md ===
# OpenGL teaching demos: input state machines and mesh layouts

This project is a Dafny model of the parts of three OpenGL teaching demos
that are plain logic rather than GL calls or float arithmetic.

- **The later sine-wave demo** (`src/sinewave3D-glm.cpp`):
  - `keyboard` changes the `Global g` record of display toggles;
  - `mouse` and `motion` drive an orbit camera;
  - `drawGrid` and `drawSineWave` emit a tessellated surface as quad strips,
    choosing per vertex between a normal, a CPU-lit colour, or nothing.
- **The earlier sine-wave tutorial** (`examples/6-tutorial/sinewave3D-glm.cpp`):
  the same structure with a smaller `keyboard` (a shape enum, a polygon-mode
  enum, and an 'a' key that works in either shape) and the same camera.
- **The shader tutorial** (`examples/5-tutorial/tute-shaders/tute-shaders.c`):
  - `generate_sphere` lays a latitude/longitude grid out in two arrays;
  - `draw_sphere` draws two triangles per quad by index into those arrays;
  - `event` turns SDL events into render-state changes, held movement keys
    and mouse-look;
  - `update` moves the camera once per frame.

## How it is modelled

- **State records.** Each demo's state is an immutable record. Each
  handler is a pure function from state and input to new state, or to
  "exit"/"quit".
- **Flags.** The booleans that one key each negates are kept as the set of
  flags that are on. "Changes only its own flag" then becomes one record
  equality.
- **Invariants.** Invariants over arbitrary key or event sequences are
  proved by folding the handler over the sequence (`Run`, `Events`).
  `Events` handles one frame's events and stops at a quit; the SDL main
  loop's own inner loop, which does not stop there, is `PollAsWritten`
  (see Findings).
- **Floats and trig.**
  - Floats are `real`, so rounding is not modelled.
  - `sinf`/`cosf` are uninterpreted functions (`Geometry.TrigFns`), and pi
    is a parameter.
  - Properties that need trigonometric identities take them as
    hypotheses: `ExactAtZero`, `Pythagorean`, `Symmetric`.
- **Emitted vertices.** A vertex records its grid point, its model-space
  position and the attribute sent with it. The attribute is a normal, a
  colour computed from a normal, or nothing.
- **Clock readings.** The clock reading taken by 'a' and the milliseconds
  passed to `update` are parameters.

Modules:
- `Toggles`: tessellation, wave dimension, polygon mode and flag negation, which the demos share.
- `OrbitCamera`: `mouse`/`motion`, which is the same code in both sine demos.
- `SineWaveKeys` and `TutorialKeys`: the two `keyboard` handlers.
- `Surface`: strip emission and the per-frame pipeline choice.
- `Sphere`: the sphere arrays and triangles.
- `ShaderTute`: `event` and `update`.

### CPU work in shader mode

`drawSineWave` always computes y on the CPU, and the normal whenever
lighting is on, whether or not `useShaders` is on (`src/sinewave3D-glm.cpp`
lines 639-650 and 675-731); the shader flag only selects the pipeline. `Surface.DrawLater` states each
emitted vertex exactly: it is `GridVertex` or `WaveVertex` at its grid
point, and both are functions of the tessellation, the wave, the time, the
dimension and the lighting and `fixed` flags only, so `useShaders` does not
reach the vertex stream.

## Model

| member | source | states |
|---|---|---|
| Toggles.FlipPolygonMode | examples/6-tutorial/sinewave3D-glm.cpp:712-719 | 'm' always switches line and fill: the result differs from the input |
| Toggles.FlipPolygonModeTwice | examples/6-tutorial/sinewave3D-glm.cpp:712-719 | pressing 'm' twice restores the polygon mode |
| Toggles.TessLevelIsPow2 | src/sinewave3D-glm.cpp:1015-1025 | every tessellation level the keys can produce is 8 * 2^k for some k |
| Toggles.Pow2IsTessLevel | src/sinewave3D-glm.cpp:1015-1025 | conversely, every 8 * 2^k is such a level |
| Toggles.DoubleTess | src/sinewave3D-glm.cpp:1015-1019 | '+' maps a valid level to a strictly larger valid level |
| Toggles.HalveTess | src/sinewave3D-glm.cpp:1020-1026 | '-' never goes below 8; it halves (C truncation) from 16 up and gives 8 below that; a valid level stays valid and does not grow |
| Toggles.HalveUndoesDouble | src/sinewave3D-glm.cpp:1015-1026 | '-' after '+' restores any tessellation of at least 8 |
| Toggles.DoubleUndoesHalve | src/sinewave3D-glm.cpp:1015-1026 | '+' after '-' restores any valid level above the floor |
| Toggles.NextWaveDim | src/sinewave3D-glm.cpp:999-1005 | 'z' keeps the dimension at most 3, and at least 2 when it was; it swaps 2 and 3 |
| OrbitCamera.Mouse | src/sinewave3D-glm.cpp:1034-1056 | a button event records the cursor; a press selects rotate, pan or zoom by button (other buttons keep the mode); a release makes the camera inactive; rotations and zoom are untouched |
| OrbitCamera.Motion | src/sinewave3D-glm.cpp:1058-1088 | motion always records the cursor; rotate adds dy to rotateX and dx to rotateY; zoom adds dy/100 to scale; pan and inactive change nothing else |
| OrbitCamera.MotionComposes | src/sinewave3D-glm.cpp:1068-1085 | two motion events equal one motion to the second position |
| OrbitCamera.DragDependsOnEndpointOnly | src/sinewave3D-glm.cpp:1068-1085 | a whole drag equals one motion to its last position: the deltas telescope |
| OrbitCamera.LeftDragRotates | src/sinewave3D-glm.cpp:1039-1085 | left press then motion rotates by exactly the cursor displacement and keeps the zoom |
| OrbitCamera.ReleasedCameraStaysPut | src/sinewave3D-glm.cpp:1039-1085 | after a release, motion changes only the remembered position |
| SineWaveKeys.Decode | src/sinewave3D-glm.cpp:903-1029 | only Escape quits; each key decodes to its own command and no other key does: b flat shading, d positional light, f `fixed`, g shaders, l lighting, m Phong, n normals, p per-pixel, v VBO, w wireframe, 4 multi-view, a animate, c console, H and h shininess up and down, o OSD page, s shape, z dimension, + and - tessellation; every key outside the switch does nothing |
| Toggles.Toggle | src/sinewave3D-glm.cpp:917-1014 | negating a flag changes that flag's membership and no other; both demos' single-flag keys use it |
| Toggles.ToggleTwice | src/sinewave3D-glm.cpp:917-1014 | negating a flag twice restores the flag set |
| SineWaveKeys.NextOsd | src/sinewave3D-glm.cpp:971-977 | 'o' always moves the on-screen display page, one step forward through frame, flags and values and back to frame |
| SineWaveKeys.Apply | src/sinewave3D-glm.cpp:903-1029 | only the quit command exits; a flag command negates exactly its own flag and leaves every other field alone; 'c' flips both the console and OSD flags; shininess moves by 5 clamped to [5, 125]; 'o' advances the OSD page; 'z' switches dimension; '+' doubles and '-' halves the tessellation down to 8; 'a' outside wave mode does nothing and inside flips animate, restarting the clock when it starts; 's' flips wave mode and stops the animation when leaving it; an unknown key leaves the state unchanged |
| SineWaveKeys.ConsoleKey | src/sinewave3D-glm.cpp:922-927 | 'c' flips exactly the console and OSD flags, which stay opposite |
| SineWaveKeys.ApplyPreservesInv | src/sinewave3D-glm.cpp:903-1029 | every command keeps the invariant: tessellation 8 * 2^k, shininess a multiple of 5 within [5, 125], dimension 2 or 3, animate implies wave, console and OSD opposite |
| SineWaveKeys.Keyboard | src/sinewave3D-glm.cpp:899-1032 | the handler exits exactly on Escape, ignores unhandled keys, and a flag key negates exactly its own flag |
| OrbitCamera.StartupCameraStill | src/sinewave3D-glm.cpp:123-130 | from the start-up camera, motion before any press keeps the 30 / -30 rotation and unit zoom and only records the last cursor position |
| SineWaveKeys.InitialInv | src/sinewave3D-glm.cpp:89-121 | the start-up values satisfy the invariant |
| SineWaveKeys.RunPreservesInv | src/sinewave3D-glm.cpp:899-1032 | any key sequence from a state satisfying the invariant ends in a state satisfying it |
| SineWaveKeys.ReachableInv | src/sinewave3D-glm.cpp:89-121 | whatever keys are pressed from start-up, the invariant holds and the tessellation is 8 * 2^k |
| SineWaveKeys.FlagKeyTwice | src/sinewave3D-glm.cpp:917-1014 | each single-flag key pressed twice restores the whole state |
| SineWaveKeys.CyclingKeysReturn | src/sinewave3D-glm.cpp:922-1005 | 'c' twice, 'z' twice on a valid dimension, and 'o' three times restore the state |
| SineWaveKeys.ShininessKeys | src/sinewave3D-glm.cpp:942-955 | 'H' adds 5 and saturates at 125, 'h' subtracts 5 and saturates at 5, and each undoes the other away from its bound |
| SineWaveKeys.TessKeys | src/sinewave3D-glm.cpp:1015-1025 | '-' undoes '+'; '+' undoes '-' above 8; '-' at 8 does nothing |
| SineWaveKeys.PlusDoubles | src/sinewave3D-glm.cpp:1015-1019 | '+' doubles the tessellation and changes nothing else |
| SineWaveKeys.RunPlus | src/sinewave3D-glm.cpp:1015-1019 | a key sequence that starts with '+' continues from the doubled state |
| SineWaveKeys.PlusMultiplies | src/sinewave3D-glm.cpp:1015-1019 | n presses of '+' multiply the tessellation by 2^n and change nothing else |
| SineWaveKeys.AnimateKey | src/sinewave3D-glm.cpp:908-916 | 'a' does nothing outside wave mode; in wave mode it flips animate and restarts the clock when animation starts; nothing else changes |
| SineWaveKeys.ShapeKey | src/sinewave3D-glm.cpp:983-988 | 's' flips wave mode and stops the animation when leaving it; pressing it twice restores the state, with the animation stopped |
| TutorialKeys.Decode | examples/6-tutorial/sinewave3D-glm.cpp:693-765 | only Escape quits; each key decodes to its own command and no other key does: l lighting, f `fixed`, n normals, c console, o OSD, 4 multi-view, a animate, m polygon mode, s shape, v VBO message, + and - tessellation, z dimension; every key outside the switch does nothing |
| TutorialKeys.OtherShape | examples/6-tutorial/sinewave3D-glm.cpp:733 | 's' always switches the shape |
| TutorialKeys.Apply | examples/6-tutorial/sinewave3D-glm.cpp:693-765 | a flag key negates only its flag; 'm' flips only the polygon mode; 's' switches shape, always stops animation and changes nothing else; 'a' flips animate whatever the shape and restarts the clock when animation starts; '+' doubles and '-' halves the tessellation down to 8; 'z' switches dimension; 'v' and unknown keys change nothing; the invariant is kept |
| TutorialKeys.Keyboard | examples/6-tutorial/sinewave3D-glm.cpp:691-766 | the handler exits exactly on Escape; 'v' and unhandled keys leave the state unchanged; flag keys touch only the flags; the invariant is kept |
| TutorialKeys.InitialInv | examples/6-tutorial/sinewave3D-glm.cpp:67 | the start-up values satisfy the invariant |
| TutorialKeys.ReachableInv | examples/6-tutorial/sinewave3D-glm.cpp:67 | whatever keys are pressed from start-up, the invariant holds and the tessellation is 8 * 2^k |
| TutorialKeys.RunPreservesInv | examples/6-tutorial/sinewave3D-glm.cpp:747-762 | over any key sequence the tessellation stays a level 8 * 2^k and the dimension stays 2 or 3 |
| TutorialKeys.TogglesTwice | examples/6-tutorial/sinewave3D-glm.cpp:704-743 | 'm' and each flag key pressed twice restore the state |
| TutorialKeys.ShapeTwice | examples/6-tutorial/sinewave3D-glm.cpp:732-735 | 's' twice restores the shape and leaves the animation stopped |
| TutorialKeys.AnimateWithoutWave | examples/6-tutorial/sinewave3D-glm.cpp:698-703 | unlike the later demo, 'a' from start-up animates while the grid is shown |
| Surface.AttributeFor | src/sinewave3D-glm.cpp:570-578 | with lighting on, a vertex gets a normal when `fixed` is set and a CPU colour otherwise, computed from the given normal; with lighting off it gets neither |
| Surface.GridCoordSpans | src/sinewave3D-glm.cpp:559-561 | grid lines run from -1 to 1 in equal increasing steps of 2 / tess |
| Surface.StripVertexCount | src/sinewave3D-glm.cpp:556-598 | the strips hold 2 * tess * (tess + 1) vertices in all |
| Surface.DrawGrid | src/sinewave3D-glm.cpp:556-598 | tess strips of 2 * (tess + 1) vertices; vertex k of strip j is grid point (k / 2, j + k % 2) at height 0 with an up normal or its colour |
| Surface.TwoDimensionalWave | examples/6-tutorial/sinewave3D-glm.cpp:465-471 | in 2D the unnormalised normal has y = 1 and z = 0, and the two vertices of a strip step share height and attribute |
| Surface.WaveStep | src/sinewave3D-glm.cpp:678-728 | reusing the first vertex's height and normal, and recomputing them only in 3D, gives the wave's own height and normal at both grid points |
| Surface.DrawSineWave | src/sinewave3D-glm.cpp:675-731 | same strip order as the grid; each vertex is the wave surface at its grid point, with the attribute computed from the wave normal there |
| Surface.LaterPipeline | src/sinewave3D-glm.cpp:639-667 | the shader program is used exactly when `useShaders` is on; fixed-function lighting exactly when it is off and lighting and `fixed` are on; flat shading only for the wave with `flat` on; otherwise GL lighting is off with cyan as the current colour, which the CPU colours override when lighting is on and `fixed` off |
| Surface.DrawLater | src/sinewave3D-glm.cpp:855-884 | a frame uses the chosen pipeline and the wireframe mode; vertex k of strip j is the grid or wave vertex at grid point (k / 2, j + k % 2), with the lighting/`fixed` attribute, whatever the shader flag; the grid is flat |
| Surface.TutorialPipeline | examples/6-tutorial/sinewave3D-glm.cpp:439-451 | fixed-function lighting, always smooth, exactly when lighting and `fixed` are both on; otherwise GL lighting is off with cyan as the current colour, which the CPU colours override when lighting is on; never a shader |
| Surface.DrawTutorial | examples/6-tutorial/sinewave3D-glm.cpp:644-673 | a tutorial frame uses the tutorial pipeline and polygon mode; vertex k of strip j is the grid or wave vertex of the chosen shape at grid point (k / 2, j + k % 2); the grid is flat |
| Surface.UnitBound | src/sinewave3D-glm.cpp:690-693 | a sine whose square plus its cosine's square is 1 lies in [-1, 1] |
| Surface.WaveHeightBounded | src/sinewave3D-glm.cpp:632-693 | with the demo's amplitudes of 0.25, the 2D wave stays within 0.25 of the plane and the 3D wave within 0.5 |
| Sphere.IndexInRange | examples/5-tutorial/tute-shaders/tute-shaders.c:147-156 | every grid point's index lies in [0, (stacks + 1) * (slices + 1)) |
| Sphere.AllIndicesInRange | examples/5-tutorial/tute-shaders/tute-shaders.c:147-156 | the same, for all grid points at once |
| Sphere.IndexDecodes | examples/5-tutorial/tute-shaders/tute-shaders.c:156 | dividing an index by slices + 1 gives back the stack, and the remainder gives back the slice |
| Sphere.IndexInjective | examples/5-tutorial/tute-shaders/tute-shaders.c:152-156 | no two grid points share an index |
| Sphere.IndexOnto | examples/5-tutorial/tute-shaders/tute-shaders.c:147-156 | every slot of the arrays is the index of some grid point, so there are no gaps |
| Sphere.GenerateSphere | examples/5-tutorial/tute-shaders/tute-shaders.c:137-165 | both arrays have (stacks + 1) * (slices + 1) slots, and the slot of each grid point holds that point and its normal |
| Sphere.FilledPlacesEveryPoint | examples/5-tutorial/tute-shaders/tute-shaders.c:152-164 | once every slot is filled in order, each grid point sits in its own slot |
| Sphere.PointAlongDirection | examples/5-tutorial/tute-shaders/tute-shaders.c:157-162 | a vertex is the radius times its unit direction, and its normal is that direction |
| Sphere.DirectionIsUnit | examples/5-tutorial/tute-shaders/tute-shaders.c:157-159 | with exact trigonometry the direction has length 1 |
| Sphere.OnSphere | examples/5-tutorial/tute-shaders/tute-shaders.c:157-162 | with exact trigonometry every vertex lies on the sphere of the given radius, and its normal has unit length and points along it |
| Sphere.NorthPole | examples/5-tutorial/tute-shaders/tute-shaders.c:153-159 | every slice of stack 0 lands on (0, 0, radius) |
| Sphere.DrawSphere | examples/5-tutorial/tute-shaders/tute-shaders.c:167-191 | stacks rows of 2 * slices triangles, two per quad in slice order; every corner is a slot of the generated arrays and no triangle repeats a slot; 6 * stacks * slices vertices in all |
| Sphere.DrawStack | examples/5-tutorial/tute-shaders/tute-shaders.c:174-188 | one stack's triangles, in order, each with three distinct in-range corners |
| Sphere.DemoSphere | examples/5-tutorial/tute-shaders/tute-shaders.c:36 | for the 16 x 16 sphere both call sites use, there are 289 slots and every drawn triangle stays inside them |
| Sphere.TrianglesWellFormed | examples/5-tutorial/tute-shaders/tute-shaders.c:175-187 | both triangles of a quad have three distinct in-range corners and share the diagonal |
| Sphere.EveryVertexDrawn | examples/5-tutorial/tute-shaders/tute-shaders.c:173-187 | every generated vertex is a corner of some drawn triangle |
| ShaderTute.FlipCullFace | examples/5-tutorial/tute-shaders/tute-shaders.c:377-383 | F5 always switches the culled face |
| ShaderTute.Event | examples/5-tutorial/tute-shaders/tute-shaders.c:344-466 | only Escape quits; no event moves the camera; only motion turns it; a movement key-down adds its control to the held set and its key-up removes it; F1 to F6 flip lighting, the front and back polygon modes, culling, the culled face and `useShaders`; other keys, key-ups of non-movement keys and unhandled events change nothing; a mouse button event changes only the left-button flag |
| ShaderTute.KeyDownEvent | examples/5-tutorial/tute-shaders/tute-shaders.c:349-411 | F1 to F6 each flip exactly their own render-state field; a movement key becomes held and nothing else changes; other keys do nothing |
| ShaderTute.KeyUpEvent | examples/5-tutorial/tute-shaders/tute-shaders.c:413-438 | releasing a movement key clears exactly that key; any other key-up does nothing |
| ShaderTute.MotionEvent | examples/5-tutorial/tute-shaders/tute-shaders.c:448-459 | the first motion only clears the first-motion flag; later motion with the left button down subtracts 0.3 * xrel from heading and 0.3 * yrel from pitch; with it up nothing changes |
| ShaderTute.SetMouseState | examples/5-tutorial/tute-shaders/tute-shaders.c:333-342 | only the left button is tracked |
| ShaderTute.FunctionKeysTwice | examples/5-tutorial/tute-shaders/tute-shaders.c:355-387 | each function key pressed twice restores the state |
| ShaderTute.PressRelease | examples/5-tutorial/tute-shaders/tute-shaders.c:389-437 | pressing and releasing a movement key that was up leaves no trace |
| ShaderTute.NoTurnWithoutButton | examples/5-tutorial/tute-shaders/tute-shaders.c:440-459 | in the corrected loop, with the left button up, no event sequence without a left press changes heading or pitch |
| ShaderTute.StartupFacing | examples/5-tutorial/tute-shaders/tute-shaders.c:228-234 | from the start-up state, event handling alone never turns the camera from heading 180 and level pitch before a left press; the frame's `update`, written or corrected, then keeps heading 180 unless a turn key is held (lines 319-322 and 329) |
| ShaderTute.EventsQuitIffEscape | examples/5-tutorial/tute-shaders/tute-shaders.c:349-353 | corrected main loop: a frame's events quit exactly when one of them is an Escape key-down |
| ShaderTute.PollAsWritten | examples/5-tutorial/tute-shaders/sdl-base.c:54-81 | as written: every event reaches `event` and only the last answer survives, so the loop ends exactly when the frame's last event is an Escape key-down |
| ShaderTute.WithoutEscape | examples/5-tutorial/tute-shaders/tute-shaders.c:352-353 | the frame's events with the Escape key-downs taken out, in order; a frame without Escape is unchanged |
| ShaderTute.PollIsEventsWithoutEscape | examples/5-tutorial/tute-shaders/sdl-base.c:57-81 | every event reaches `event` in order: the state the written loop leaves is the corrected loop's state on the same events minus the Escape key-downs, which change nothing |
| ShaderTute.PollMatchesEvents | examples/5-tutorial/tute-shaders/sdl-base.c:57-81 | in a frame without an Escape key-down the written and the corrected loop leave the same state |
| ShaderTute.PollNoTurnWithoutButton | examples/5-tutorial/tute-shaders/tute-shaders.c:440-459 | in the written loop, with the left button up, no frame without a left press changes heading or pitch, Escape or not |
| ShaderTute.PollFirstMotionOnce | examples/5-tutorial/tute-shaders/tute-shaders.c:448-453 | in the written loop, once a motion has been seen no later motion is ignored |
| ShaderTute.PollPressThenDrag | examples/5-tutorial/tute-shaders/tute-shaders.c:440-459 | in the written loop, a left press then a motion turns heading by -0.3 * xrel and pitch by -0.3 * yrel and changes nothing else but the button flag |
| ShaderTute.PollStaysHeld | examples/5-tutorial/tute-shaders/tute-shaders.c:389-437 | in the written loop, a held control stays held through a frame that does not release it |
| ShaderTute.PollPressedStaysHeld | examples/5-tutorial/tute-shaders/tute-shaders.c:389-437 | in the written loop, a movement key pressed in a frame and not released after it is held at the frame's end |
| ShaderTute.PressedStaysHeld | examples/5-tutorial/tute-shaders/tute-shaders.c:389-437 | the same in the corrected loop, whenever the frame does not quit |
| ShaderTute.EscapeLostAsWritten | examples/5-tutorial/tute-shaders/sdl-base.c:57-81 | Escape pressed and released in one frame: the written loop keeps running while the frame holds a quit |
| ShaderTute.FirstMotionOnce | examples/5-tutorial/tute-shaders/tute-shaders.c:448-453 | in the corrected loop, once a motion event has been seen, no later motion is ignored |
| ShaderTute.Contribution | examples/5-tutorial/tute-shaders/tute-shaders.c:311-322 | a key pair gives +v, -v or 0 as one, the other, or both or neither are held |
| ShaderTute.OppositeKeysCancel | examples/5-tutorial/tute-shaders/tute-shaders.c:308-322 | holding both keys of a pair is the same as holding neither; no keys give zero velocity |
| ShaderTute.Update | examples/5-tutorial/tute-shaders/tute-shaders.c:303-331 | as written: only position and heading change; the heading turns by dangle * ms; x moves by ms * dx and z by ms * dz, because the angle used is 0 |
| ShaderTute.UpdateIgnoresHeading | examples/5-tutorial/tute-shaders/tute-shaders.c:305-326 | as written, the heading has no effect on where the camera moves |
| ShaderTute.UpdateAdditive | examples/5-tutorial/tute-shaders/tute-shaders.c:324-329 | as written, two updates add up to one update of their summed milliseconds |
| ShaderTute.UpdateAlongHeading | examples/5-tutorial/tute-shaders/tute-shaders.c:324-330 | the corrected update changes only position and heading, turns the heading by dangle * ms and keeps y |
| ShaderTute.AlongHeadingKeepsSpeed | examples/5-tutorial/tute-shaders/tute-shaders.c:325-326 | with exact trigonometry the corrected update moves ms times the key speed, whatever the heading |
| ShaderTute.HeadingIgnoredAsWritten | examples/5-tutorial/tute-shaders/tute-shaders.c:303-331 | holding 'w' at a heading with non-zero sine, the written update leaves x alone while the corrected one moves it |

## Left out

- `computeLighting` (CPU Blinn-Phong) is left out: it is float `normalize`/`powf` arithmetic. A colour attribute records the model-space normal the colour is computed from.
- The `positional`, `phong`, `perPixel` and `flat` flags are left out as far as the shader is concerned: they only become shader uniforms. The fixed pipeline reads `flat`, and `Surface.LaterPipeline` models that.
- The actual values of `sinf`/`cosf`, the glm model-view and normal matrices, `glm::normalize` and the eye-space vertices are left out: they are transcendental and float arithmetic.
- The `drawNormals` pass that draws normal vectors after each surface is left out: it is GL drawing of the same formulas.
- `idle` (time accumulation and frame-rate statistics), `display`'s camera matrices, `displayMultiView`, `displayOSD`, `consolePM`, `drawAxes` and `drawVector` are left out: they are clock reads and GL/GLUT drawing. `Surface.DrawLater` and `Surface.DrawTutorial` keep only the choice between grid and wave.
- The 'v' key's `vbo` flag is modelled as a flag only: no buffer draw path reads it.
- The fields only the clock, the statistics or the window write (`frameCount`, `frameRate`, `width`, `height`, `displayStatsInterval`, `lastStatsDisplayT`) are left out.
- Printing, `glutPostRedisplay` and `glutDisplayFunc` are left out: they are output and display scheduling.
- `update_renderstate` in the shader tutorial is left out: it only makes GL calls that mirror the render state, and the render state is modelled.
- The shader tutorial's own uniforms and its `init`/`display` GL set-up are left out: they are window and context code. `ShaderTute.Initial` keeps the state `init` sets.
- Of the SDL main loop in `sdl-base.c`, only the inner event loop is modelled (`PollAsWritten`). `SDL_QUIT`, window close and resize events, which it handles itself, are left out, as are the frame timing, `display` and buffer swaps: they are window and clock code.
- The particle demo (`examples/demos/particle`) and `src/shaders.h` are left out: they are shader file I/O, GL compile/link and `rand()`-driven drawing.
- Float rounding is left out everywhere: coordinates and angles are reals.
- Toggles.DoubleTess: `tess` is unbounded here. In the source `tess *= 2` on a 32-bit `int` overflows (undefined behaviour) after 28 presses from 8, and that is not modelled.
- Surface.DrawSineWave: requires the dimension to be 2 or 3. In the source another value leaves y at its previous value. `SineWaveKeys.ReachableInv` and `TutorialKeys.RunPreservesInv` show the dimension is always 2 or 3.
- Surface.WaveStep: requires the dimension to be 2 or 3, for the same reason.
- Surface.DrawLater: requires the wave dimension to be 2 or 3 in wave mode, which every reachable state satisfies.
- Surface.DrawTutorial: requires the wave dimension to be 2 or 3 for the wave shape, which every reachable state satisfies.
- Sphere.GenerateSphere: requires `stacks >= 1`, `slices >= 1` and a non-zero radius. With zero stacks, zero slices or a zero radius the source divides zero by zero (lines 153, 155 and 160-162) and stores NaNs. With negative stacks or slices a loop does not run, and `num_verts` can be negative, so `malloc` is passed a size converted from a negative number. The model represents none of these. The demo calls it with 16, 16 and 1.0.
- Surface.WaveHeightBounded: holds only under the `Pythagorean` hypothesis, which `sinf`/`cosf` meet only up to rounding.
- Sphere.OnSphere: holds only under the `Pythagorean` hypothesis on the trig functions, which `sinf`/`cosf` meet only up to rounding.
- ShaderTute.AlongHeadingKeepsSpeed: holds only under the `Pythagorean` and `Symmetric` hypotheses, which `sin`/`cos` meet only up to rounding.
- ShaderTute.OppositeKeysCancel: holds over reals only. In the source `camera_dz` and `camera_dangle` are `float`s built by `+=` then `-=` of the same constant (lines 311-322), which leaves a rounding residue of about 1e-10 rather than 0, so holding both keys of a pair still moves or turns the camera very slowly.
- ShaderTute.Update: its x and z statements assume `sin 0 = 0` and `cos 0 = 1` (`ExactAtZero`), which C's `sin`/`cos` give exactly.

## Findings

| source | as written | input that shows it | evidently intended | confidence | as-written member | corrected member |
|---|---|---|---|---|---|---|
| examples/5-tutorial/tute-shaders/tute-shaders.c:303-331 | `cam_rads` is a local set to 0 at the top of `update`. The position step uses it while it is still 0. The value computed from the heading on the last line is discarded. So the camera moves along the world axes whatever its heading. | heading 90 (sine 1), only 'w' held, 10 ms: x stays put as written, but should move by -0.05 | move along the heading, with `cam_rads` equal to `camera_heading * M_PI / 180` when the position is stepped | not executed | ShaderTute.HeadingIgnoredAsWritten | ShaderTute.AlongHeadingKeepsSpeed |
| examples/5-tutorial/tute-shaders/sdl-base.c:57-81 | `done = event(&ev)` runs for every pending event of a frame, so each answer overwrites the one before. | Escape key-down then key-up in one frame: the key-down returns true, the key-up false, and the program keeps running | a quit, once returned, ends the program (`done = done \|\| event(&ev)`, or leaving the poll loop) | not executed | ShaderTute.EscapeLostAsWritten | ShaderTute.EventsQuitIffEscape |

`ShaderTute.Update` models the code as written and `ShaderTute.UpdateAlongHeading` models the corrected step. No function or method of the model calls either one.

`ShaderTute.PollAsWritten` models the main loop's inner poll as written and `ShaderTute.Events` the corrected one; `ShaderTute.PollIsEventsWithoutEscape` relates the states the two leave.

=== FILE: geometry.dfy ===
/** Vectors and the transcendental functions the demos call.

    The demos compute with `float`; this model computes with `real`, so
    rounding is not modelled. `sinf`/`cosf` (and the constant 2*pi that
    multiplies into their arguments) are never evaluated: they are passed in
    as uninterpreted functions, and only the structure of the formulas that
    use them is reasoned about. */
module Geometry {

  datatype Vec3 = Vec3(x: real, y: real, z: real)

  /** A pair of sine and cosine functions, left uninterpreted. */
  datatype TrigFns = TrigFns(sin: real -> real, cos: real -> real)

  /** The two values of sine and cosine that IEEE arithmetic gets exactly
      right and that the camera update relies on. */
  predicate ExactAtZero(trig: TrigFns)
  {
    trig.sin(0.0) == 0.0 && trig.cos(0.0) == 1.0
  }

  /** sin^2 + cos^2 == 1 at every angle. */
  ghost predicate Pythagorean(trig: TrigFns)
  {
    forall a :: trig.sin(a) * trig.sin(a) + trig.cos(a) * trig.cos(a) == 1.0
  }

  /** Sine is odd and cosine is even. */
  ghost predicate Symmetric(trig: TrigFns)
  {
    forall a :: trig.sin(-a) == -trig.sin(a) && trig.cos(-a) == trig.cos(a)
  }
}

=== FILE: orbit_camera.dfy ===
/** The mouse-driven camera of both sine-wave demos (`mouse` and `motion`
    are the same code in both). A button press chooses what dragging does
    (left rotates, middle pans, right zooms), a release stops it, and each
    motion event applies the cursor delta since the last event. Pan is
    selectable but has no effect. */
module OrbitCamera {

  datatype Control = Inactive | Rotate | Pan | Zoom

  /** GLUT's three mouse buttons; any other button (e.g. a wheel step)
      is `OtherButton`. */
  datatype Button = LeftButton | MiddleButton | RightButton | OtherButton(code: int)

  datatype ButtonState = Down | Up

  /** Rotations are in degrees; `scale` is the uniform zoom factor. */
  datatype Camera = Camera(lastX: int, lastY: int, rotateX: real, rotateY: real,
                           scale: real, control: Control)

  const Initial: Camera := Camera(0, 0, 30.0, -30.0, 1.0, Inactive)

  /** `mouse(button, state, x, y)`: remember the cursor position, then
      pick the drag mode on a press or clear it on a release. */
  function Mouse(c: Camera, b: Button, s: ButtonState, x: int, y: int): (r: Camera)
    ensures r.lastX == x && r.lastY == y
    ensures r.rotateX == c.rotateX && r.rotateY == c.rotateY && r.scale == c.scale
    ensures s == Up ==> r.control == Inactive
    ensures s == Down && b == LeftButton ==> r.control == Rotate
    ensures s == Down && b == MiddleButton ==> r.control == Pan
    ensures s == Down && b == RightButton ==> r.control == Zoom
    ensures s == Down && b.OtherButton? ==> r.control == c.control
  {
    var control :=
      if s == Up then Inactive
      else match b
        case LeftButton => Rotate
        case MiddleButton => Pan
        case RightButton => Zoom
        case OtherButton(_) => c.control;
    c.(lastX := x, lastY := y, control := control)
  }

  /** `motion(x, y)`: the cursor delta rotates (dy about x, dx about y)
      or zooms (dy / 100); pan and inactive only record the position. */
  function Motion(c: Camera, x: int, y: int): (r: Camera)
    ensures r.lastX == x && r.lastY == y && r.control == c.control
    ensures c.control == Rotate ==>
      && r.rotateX == c.rotateX + (y - c.lastY) as real
      && r.rotateY == c.rotateY + (x - c.lastX) as real
      && r.scale == c.scale
    ensures c.control == Zoom ==>
      && r.scale == c.scale + (y - c.lastY) as real / 100.0
      && r.rotateX == c.rotateX && r.rotateY == c.rotateY
    ensures c.control == Pan || c.control == Inactive ==> r == c.(lastX := x, lastY := y)
  {
    var dx := (x - c.lastX) as real;
    var dy := (y - c.lastY) as real;
    var moved := c.(lastX := x, lastY := y);
    match c.control
    case Inactive => moved
    case Rotate => moved.(rotateX := c.rotateX + dy, rotateY := c.rotateY + dx)
    case Pan => moved
    case Zoom => moved.(scale := c.scale + dy / 100.0)
  }

  /** A drag: the motion events delivered for a sequence of cursor
      positions. */
  function Drag(c: Camera, path: seq<(int, int)>): Camera
    decreases |path|
  {
    if |path| == 0 then c else Drag(Motion(c, path[0].0, path[0].1), path[1..])
  }

  /** Two motion events have the same effect as one to the final position. */
  lemma MotionComposes(c: Camera, x1: int, y1: int, x2: int, y2: int)
    ensures Motion(Motion(c, x1, y1), x2, y2) == Motion(c, x2, y2)
  {
  }

  /** However the cursor travels, only where the drag ends matters: the
      deltas telescope, so a drag equals a single motion to its endpoint. */
  lemma {:induction false} DragDependsOnEndpointOnly(c: Camera, path: seq<(int, int)>)
    requires |path| > 0
    ensures Drag(c, path) == Motion(c, path[|path| - 1].0, path[|path| - 1].1)
    decreases |path|
  {
    var first := Motion(c, path[0].0, path[0].1);
    if |path| > 1 {
      DragDependsOnEndpointOnly(first, path[1..]);
      MotionComposes(c, path[0].0, path[0].1, path[|path| - 1].0, path[|path| - 1].1);
    }
  }

  /** Pressing the left button at (x0, y0) and moving to (x1, y1) rotates
      by exactly the cursor displacement and leaves the zoom alone. */
  lemma LeftDragRotates(c: Camera, x0: int, y0: int, x1: int, y1: int)
    ensures Motion(Mouse(c, LeftButton, Down, x0, y0), x1, y1).rotateX == c.rotateX + (y1 - y0) as real
    ensures Motion(Mouse(c, LeftButton, Down, x0, y0), x1, y1).rotateY == c.rotateY + (x1 - x0) as real
    ensures Motion(Mouse(c, LeftButton, Down, x0, y0), x1, y1).scale == c.scale
  {
  }

  /** From start-up no button is held, so however the cursor moves before
      the first press, the view keeps its initial 30 / -30 degree rotation
      and unit zoom. */
  lemma StartupCameraStill(path: seq<(int, int)>)
    requires |path| > 0
    ensures Drag(Initial, path) == Initial.(lastX := path[|path| - 1].0, lastY := path[|path| - 1].1)
  {
    DragDependsOnEndpointOnly(Initial, path);
  }

  /** After a release, motion moves nothing but the remembered position. */
  lemma ReleasedCameraStaysPut(c: Camera, b: Button, x0: int, y0: int, x1: int, y1: int)
    ensures Motion(Mouse(c, b, Up, x0, y0), x1, y1) == c.(lastX := x1, lastY := y1, control := Inactive)
  {
  }
}

=== FILE: shader_tute.dfy ===
/** The input handling of the shader tutorial
    (examples/5-tutorial/tute-shaders/tute-shaders.c): `event` turns SDL
    events into changes of the render state, the held movement keys, the
    left-button flag and the camera angles, and `update` moves the camera
    by the held keys once per frame.

    Milliseconds are whole numbers, as SDL delivers them; positions and
    angles are reals. The GL calls of `update_renderstate` that follow a
    render-state change are not modelled: the render state is the model. */
module ShaderTute {
  import opened Geometry
  import opened Toggles

  /** `CAMERA_VELOCITY`, in units per millisecond. */
  const CameraVelocity: real := 0.005
  /** `CAMERA_ANGULAR_VELOCITY`, in degrees per millisecond. */
  const CameraAngularVelocity: real := 0.05
  /** `CAMERA_MOUSE_X_VELOCITY` and `CAMERA_MOUSE_Y_VELOCITY`, in degrees per mouse unit. */
  const MouseXVelocity: real := 0.3
  const MouseYVelocity: real := 0.3

  /** SDL's number for the left mouse button. */
  const ButtonLeft: int := 1

  /** The six keys whose state is held in `controls`. */
  datatype Control = W | S | A | D | TurnLeft | TurnRight

  datatype SdlKey =
    | EscapeKey | F1 | F2 | F3 | F4 | F5 | F6
    | Held(control: Control)
    | OtherKey(code: int)

  datatype SdlEvent =
    | KeyDown(key: SdlKey) | KeyUp(key: SdlKey)
    | MouseButtonDown(button: int) | MouseButtonUp(button: int)
    | MouseMotion(xrel: int, yrel: int)
    | OtherEvent

  datatype CullFace = Back | Front

  /** `renderstate`; `polygonMode[front_face]` is `front` and
      `polygonMode[back_face]` is `back`. */
  datatype RenderState = RenderState(
    lighting: bool, cull: bool, cullFace: CullFace,
    front: PolygonMode, back: PolygonMode, useShaders: bool)

  /** All the state `event` and `update` touch; `pressed` holds the controls
      that are true, and `firstMotion` is the static `first_mousemotion`. */
  datatype Tute = Tute(
    pos: Vec3, heading: real, pitch: real,
    mouse1Down: bool, firstMotion: bool,
    pressed: set<Control>, render: RenderState)

  /** The values `init` sets. */
  const Initial: Tute := Tute(
    Vec3(0.0, 0.0, -1.0), 180.0, 0.0, false, true, {},
    RenderState(true, false, Back, Fill, Fill, false))

  function FlipCullFace(f: CullFace): (r: CullFace)
    ensures r != f
  {
    if f == Back then Front else Back
  }

  /** What `event` returns: true (quit) or false with the new state. */
  datatype EventOutcome = Quit | Handled(state: Tute)

  /** `event(event)`: Escape is the only event that quits, and no event
      moves the camera. A movement key-down holds its control and the
      key-up releases it; F1..F6 each flip one render-state field. */
  function Event(s: Tute, e: SdlEvent): (r: EventOutcome)
    ensures r.Quit? <==> e == KeyDown(EscapeKey)
    ensures r.Handled? ==> r.state.pos == s.pos
    ensures e.KeyDown? && e.key.Held? ==> r == Handled(s.(pressed := s.pressed + {e.key.control}))
    ensures e.KeyUp? && e.key.Held? ==> r == Handled(s.(pressed := s.pressed - {e.key.control}))
    ensures e.KeyUp? && !e.key.Held? ==> r == Handled(s)
    ensures e.KeyDown? && e.key.OtherKey? ==> r == Handled(s)
    ensures e == KeyDown(F1) ==> r == Handled(s.(render := s.render.(lighting := !s.render.lighting)))
    ensures e == KeyDown(F2) ==> r == Handled(s.(render := s.render.(front := FlipPolygonMode(s.render.front))))
    ensures e == KeyDown(F3) ==> r == Handled(s.(render := s.render.(back := FlipPolygonMode(s.render.back))))
    ensures e == KeyDown(F4) ==> r == Handled(s.(render := s.render.(cull := !s.render.cull)))
    ensures e == KeyDown(F5) ==> r == Handled(s.(render := s.render.(cullFace := FlipCullFace(s.render.cullFace))))
    ensures e == KeyDown(F6) ==> r == Handled(s.(render := s.render.(useShaders := !s.render.useShaders)))
    ensures r.Handled? && !e.KeyDown? && !e.KeyUp? ==> r.state.pressed == s.pressed
    ensures r.Handled? && !e.MouseMotion? ==>
      && r.state.firstMotion == s.firstMotion
      && r.state.heading == s.heading && r.state.pitch == s.pitch
    ensures e.MouseButtonDown? || e.MouseButtonUp? ==>
      && r.Handled?
      && r.state.(mouse1Down := s.mouse1Down) == s
      && r.state.mouse1Down == (if e.button == ButtonLeft then e.MouseButtonDown? else s.mouse1Down)
    ensures e == OtherEvent ==> r == Handled(s)
  {
    match e
    case KeyDown(key) => KeyDownEvent(s, key)
    case KeyUp(key) => Handled(KeyUpEvent(s, key))
    case MouseButtonDown(b) => Handled(SetMouseState(s, b, true))
    case MouseButtonUp(b) => Handled(SetMouseState(s, b, false))
    case MouseMotion(xrel, yrel) => Handled(MotionEvent(s, xrel, yrel))
    case OtherEvent => Handled(s)
  }

  /** The `SDL_KEYDOWN` case: Escape quits, F1..F6 each change one field of
      the render state, a movement key becomes held, other keys do nothing. */
  function KeyDownEvent(s: Tute, key: SdlKey): (r: EventOutcome)
    ensures r.Quit? <==> key == EscapeKey
    ensures r.Handled? ==> r.state.(render := s.render, pressed := s.pressed) == s
    ensures !key.Held? ==> r.Handled? ==> r.state.pressed == s.pressed
    ensures key.Held? || key.OtherKey? ==> r.Handled? && r.state.render == s.render
    ensures key == F1 ==>
      r.Handled? && r.state.render.lighting != s.render.lighting
      && r.state.render.(lighting := s.render.lighting) == s.render
    ensures key == F2 ==>
      r.Handled? && r.state.render.front != s.render.front
      && r.state.render.(front := s.render.front) == s.render
    ensures key == F3 ==>
      r.Handled? && r.state.render.back != s.render.back
      && r.state.render.(back := s.render.back) == s.render
    ensures key == F4 ==>
      r.Handled? && r.state.render.cull != s.render.cull
      && r.state.render.(cull := s.render.cull) == s.render
    ensures key == F5 ==>
      r.Handled? && r.state.render.cullFace != s.render.cullFace
      && r.state.render.(cullFace := s.render.cullFace) == s.render
    ensures key == F6 ==>
      r.Handled? && r.state.render.useShaders != s.render.useShaders
      && r.state.render.(useShaders := s.render.useShaders) == s.render
    ensures key.Held? ==>
      r.Handled? && key.control in r.state.pressed
      && r.state.pressed - {key.control} == s.pressed - {key.control}
    ensures key.OtherKey? ==> r == Handled(s)
  {
    match key
    case EscapeKey => Quit
    case F1 => Handled(s.(render := s.render.(lighting := !s.render.lighting)))
    case F2 => Handled(s.(render := s.render.(front := FlipPolygonMode(s.render.front))))
    case F3 => Handled(s.(render := s.render.(back := FlipPolygonMode(s.render.back))))
    case F4 => Handled(s.(render := s.render.(cull := !s.render.cull)))
    case F5 => Handled(s.(render := s.render.(cullFace := FlipCullFace(s.render.cullFace))))
    case F6 => Handled(s.(render := s.render.(useShaders := !s.render.useShaders)))
    case Held(c) => Handled(s.(pressed := s.pressed + {c}))
    case OtherKey(_) => Handled(s)
  }

  /** The `SDL_KEYUP` case: a movement key is released; nothing else,
      Escape and the function keys included, has an effect. */
  function KeyUpEvent(s: Tute, key: SdlKey): (r: Tute)
    ensures r.(pressed := s.pressed) == s
    ensures key.Held? ==> key.control !in r.pressed
    ensures key.Held? ==> forall c :: c != key.control ==> (c in r.pressed <==> c in s.pressed)
    ensures !key.Held? ==> r == s
  {
    if key.Held? then s.(pressed := s.pressed - {key.control}) else s
  }

  /** The `SDL_MOUSEMOTION` case: the first motion event only clears
      `first_mousemotion`; later ones turn the camera while the left button
      is down, and do nothing otherwise. */
  function MotionEvent(s: Tute, xrel: int, yrel: int): (r: Tute)
    ensures s.firstMotion || !s.mouse1Down ==> r == s.(firstMotion := false)
    ensures !s.firstMotion && s.mouse1Down ==>
      && r.heading == s.heading - (xrel as real) * MouseXVelocity
      && r.pitch == s.pitch - (yrel as real) * MouseYVelocity
      && r.(heading := s.heading, pitch := s.pitch) == s
  {
    if s.firstMotion then s.(firstMotion := false)
    else if s.mouse1Down then
      s.(heading := s.heading - (xrel as real) * MouseXVelocity,
         pitch := s.pitch - (yrel as real) * MouseYVelocity)
    else s
  }

  /** `set_mousestate(button, state)`: only the left button is tracked. */
  function SetMouseState(s: Tute, button: int, down: bool): (r: Tute)
    ensures button == ButtonLeft ==> r == s.(mouse1Down := down)
    ensures button != ButtonLeft ==> r == s
  {
    if button == ButtonLeft then s.(mouse1Down := down) else s
  }

  /** The events of one frame as the main loop evidently means to handle
      them: in order, with a quit ending the frame and the program. */
  function Events(s: Tute, es: seq<SdlEvent>): EventOutcome
    decreases |es|
  {
    if |es| == 0 then Handled(s)
    else match Event(s, es[0])
      case Quit => Quit
      case Handled(s') => Events(s', es[1..])
  }

  /** The frame quits exactly when it holds an Escape key-down. */
  lemma {:induction false} EventsQuitIffEscape(s: Tute, es: seq<SdlEvent>)
    ensures Events(s, es).Quit? <==> exists i :: 0 <= i < |es| && es[i] == KeyDown(EscapeKey)
    decreases |es|
  {
    if |es| > 0 {
      match Event(s, es[0])
      case Quit =>
        assert es[0] == KeyDown(EscapeKey);
      case Handled(s') =>
        EventsQuitIffEscape(s', es[1..]);
        if exists i :: 0 <= i < |es| && es[i] == KeyDown(EscapeKey) {
          var i :| 0 <= i < |es| && es[i] == KeyDown(EscapeKey);
          assert i > 0 && es[1..][i - 1] == es[i];
        }
        if exists i :: 0 <= i < |es[1..]| && es[1..][i] == KeyDown(EscapeKey) {
          var i :| 0 <= i < |es[1..]| && es[1..][i] == KeyDown(EscapeKey);
          assert es[i + 1] == es[1..][i];
        }
    }
  }

  /** The main loop's `done` flag and the state after one inner poll loop. */
  datatype PollResult = PollResult(done: bool, state: Tute)

  /** The inner `SDL_PollEvent` loop of the main program as written: every
      pending event reaches `event` and `done` takes the last answer, so
      only an Escape that is the frame's last event ends the program. */
  function PollAsWritten(s: Tute, done: bool, es: seq<SdlEvent>): (r: PollResult)
    ensures |es| == 0 ==> r == PollResult(done, s)
    ensures |es| > 0 ==> (r.done <==> es[|es| - 1] == KeyDown(EscapeKey))
    decreases |es|
  {
    if |es| == 0 then PollResult(done, s)
    else match Event(s, es[0])
      case Quit => PollAsWritten(s, true, es[1..])
      case Handled(s') => PollAsWritten(s', false, es[1..])
  }

  /** The events of a frame with every Escape key-down removed, in order. */
  function WithoutEscape(es: seq<SdlEvent>): (r: seq<SdlEvent>)
    ensures |r| <= |es|
    ensures forall i :: 0 <= i < |r| ==> r[i] != KeyDown(EscapeKey) && r[i] in es
    ensures (forall i :: 0 <= i < |es| ==> es[i] != KeyDown(EscapeKey)) ==> r == es
    decreases |es|
  {
    if |es| == 0 then []
    else if es[0] == KeyDown(EscapeKey) then WithoutEscape(es[1..])
    else [es[0]] + WithoutEscape(es[1..])
  }

  /** The state the written loop leaves is that of the corrected loop run
      on the same events with the Escape key-downs taken out: `event`
      returns on Escape before touching anything, and every other event
      is handled in order. */
  lemma {:induction false} PollIsEventsWithoutEscape(s: Tute, done: bool, es: seq<SdlEvent>)
    ensures Events(s, WithoutEscape(es)) == Handled(PollAsWritten(s, done, es).state)
    decreases |es|
  {
    if |es| > 0 {
      match Event(s, es[0])
      case Quit =>
        PollIsEventsWithoutEscape(s, true, es[1..]);
      case Handled(s') =>
        PollIsEventsWithoutEscape(s', false, es[1..]);
        var rest := WithoutEscape(es[1..]);
        assert WithoutEscape(es) == [es[0]] + rest;
        assert ([es[0]] + rest)[1..] == rest;
    }
  }

  /** Without an Escape key-down the written and the corrected loop agree. */
  lemma PollMatchesEvents(s: Tute, done: bool, es: seq<SdlEvent>)
    requires forall i :: 0 <= i < |es| ==> es[i] != KeyDown(EscapeKey)
    ensures Events(s, es) == Handled(PollAsWritten(s, done, es).state)
  {
    PollIsEventsWithoutEscape(s, done, es);
  }

  /** In the loop the program runs, with the left button up, no frame
      without a left press turns the camera. */
  lemma PollNoTurnWithoutButton(s: Tute, done: bool, es: seq<SdlEvent>)
    requires !s.mouse1Down
    requires forall i :: 0 <= i < |es| ==> es[i] != MouseButtonDown(ButtonLeft)
    ensures PollAsWritten(s, done, es).state.heading == s.heading
    ensures PollAsWritten(s, done, es).state.pitch == s.pitch
  {
    var kept := WithoutEscape(es);
    forall i | 0 <= i < |kept|
      ensures kept[i] != MouseButtonDown(ButtonLeft)
    {
      assert kept[i] in es;
    }
    PollIsEventsWithoutEscape(s, done, es);
    NoTurnWithoutButton(s, kept);
  }

  /** In the loop the program runs, a motion event seen once is never
      ignored again. */
  lemma PollFirstMotionOnce(s: Tute, done: bool, es: seq<SdlEvent>)
    requires !s.firstMotion
    ensures !PollAsWritten(s, done, es).state.firstMotion
  {
    PollIsEventsWithoutEscape(s, done, es);
    FirstMotionOnce(s, WithoutEscape(es));
  }

  /** In the loop the program runs, a left press followed by a motion turns
      the camera by 0.3 degrees per mouse unit and changes nothing else but
      the button flag. */
  lemma PollPressThenDrag(s: Tute, done: bool, xrel: int, yrel: int)
    requires !s.firstMotion
    ensures PollAsWritten(s, done, [MouseButtonDown(ButtonLeft), MouseMotion(xrel, yrel)]).state
      == s.(mouse1Down := true,
            heading := s.heading - (xrel as real) * MouseXVelocity,
            pitch := s.pitch - (yrel as real) * MouseYVelocity)
  {
    var es := [MouseButtonDown(ButtonLeft), MouseMotion(xrel, yrel)];
    var s1 := s.(mouse1Down := true);
    assert Event(s, es[0]) == Handled(s1);
    assert es[1..] == [MouseMotion(xrel, yrel)];
    assert [MouseMotion(xrel, yrel)][1..] == [];
  }

  /** In the loop the program runs, a held control stays held through a
      frame that does not release it. */
  lemma {:induction false} PollStaysHeld(s: Tute, done: bool, es: seq<SdlEvent>, c: Control)
    requires c in s.pressed
    requires forall j :: 0 <= j < |es| ==> es[j] != KeyUp(Held(c))
    ensures c in PollAsWritten(s, done, es).state.pressed
    decreases |es|
  {
    if |es| > 0 {
      match Event(s, es[0])
      case Quit =>
        PollStaysHeld(s, true, es[1..], c);
      case Handled(s') =>
        assert c in s'.pressed;
        PollStaysHeld(s', false, es[1..], c);
    }
  }

  /** In the loop the program runs, a movement key pressed in a frame and
      not released after it is held when the frame's events are done. */
  lemma {:induction false} PollPressedStaysHeld(s: Tute, done: bool, es: seq<SdlEvent>, i: nat, c: Control)
    requires i < |es| && es[i] == KeyDown(Held(c))
    requires forall j :: i < j < |es| ==> es[j] != KeyUp(Held(c))
    ensures c in PollAsWritten(s, done, es).state.pressed
    decreases i
  {
    var r := Event(s, es[0]);
    var next := if r.Quit? then s else r.state;
    if i == 0 {
      assert c in next.pressed;
      PollStaysHeld(next, r.Quit?, es[1..], c);
    } else {
      PollPressedStaysHeld(next, r.Quit?, es[1..], i - 1, c);
    }
  }

  /** The same in the corrected loop: if the frame does not quit, a movement
      key pressed and not released afterwards is held at its end. */
  lemma PressedStaysHeld(s: Tute, es: seq<SdlEvent>, i: nat, c: Control)
    requires i < |es| && es[i] == KeyDown(Held(c))
    requires forall j :: i < j < |es| ==> es[j] != KeyUp(Held(c))
    ensures Events(s, es).Handled? ==> c in Events(s, es).state.pressed
  {
    if Events(s, es).Handled? {
      EventsQuitIffEscape(s, es);
      PollMatchesEvents(s, false, es);
      PollPressedStaysHeld(s, false, es, i, c);
    }
  }

  /** Escape pressed and released within one frame: the loop as written
      overwrites the quit with the key-up's false and keeps running, while
      the frame does hold a quit. */
  lemma EscapeLostAsWritten(s: Tute)
    ensures !PollAsWritten(s, false, [KeyDown(EscapeKey), KeyUp(EscapeKey)]).done
    ensures Events(s, [KeyDown(EscapeKey), KeyUp(EscapeKey)]).Quit?
  {
    var es := [KeyDown(EscapeKey), KeyUp(EscapeKey)];
    assert es[|es| - 1] == KeyUp(EscapeKey);
  }

  /** Each function key, pressed twice, restores the state. */
  lemma FunctionKeysTwice(s: Tute, k: SdlKey)
    requires k in {F1, F2, F3, F4, F5, F6}
    ensures Event(Event(s, KeyDown(k)).state, KeyDown(k)) == Handled(s)
  {
    FlipPolygonModeTwice(s.render.front);
    FlipPolygonModeTwice(s.render.back);
  }

  /** Pressing and releasing a movement key that was up leaves no trace. */
  lemma PressRelease(s: Tute, c: Control)
    requires c !in s.pressed
    ensures Events(s, [KeyDown(Held(c)), KeyUp(Held(c))]) == Handled(s)
  {
    var es := [KeyDown(Held(c)), KeyUp(Held(c))];
    var s1 := Event(s, es[0]).state;
    assert es[1..] == [KeyUp(Held(c))];
    assert [KeyUp(Held(c))][1..] == [];
    var s2 := Event(s1, KeyUp(Held(c))).state;
    assert s2.pressed == s.pressed;
    assert Events(s, es) == Events(s1, [KeyUp(Held(c))]) == Events(s2, []);
  }

  /** Only `first_mousemotion` separates a state from its successors; once
      a motion event has been seen it stays seen, and with the left button
      up no event sequence without a left-button press turns the camera. */
  lemma {:induction false} NoTurnWithoutButton(s: Tute, es: seq<SdlEvent>)
    requires !s.mouse1Down
    requires forall i :: 0 <= i < |es| ==> es[i] != MouseButtonDown(ButtonLeft)
    ensures Events(s, es).Handled? ==>
      Events(s, es).state.heading == s.heading && Events(s, es).state.pitch == s.pitch
    decreases |es|
  {
    if |es| > 0 {
      var r := Event(s, es[0]);
      if r.Handled? {
        assert !r.state.mouse1Down;
        NoTurnWithoutButton(r.state, es[1..]);
      }
    }
  }

  /** `init` leaves the left button up, so before a left press no event
      turns the camera from its start-up heading of 180 degrees and level
      pitch; the frame's `update` then keeps the heading too unless a turn
      key is held, in the written and in the corrected step alike. */
  lemma StartupFacing(es: seq<SdlEvent>, ms: int, trig: TrigFns, pi: real)
    requires forall i :: 0 <= i < |es| ==> es[i] != MouseButtonDown(ButtonLeft)
    ensures Events(Initial, es).Handled? ==>
      Events(Initial, es).state.heading == 180.0 && Events(Initial, es).state.pitch == 0.0
    ensures (Events(Initial, es).Handled? && TurnLeft !in Events(Initial, es).state.pressed
             && TurnRight !in Events(Initial, es).state.pressed) ==>
      && Update(Events(Initial, es).state, ms, trig).heading == 180.0
      && UpdateAlongHeading(Events(Initial, es).state, ms, trig, pi).heading == 180.0
  {
    NoTurnWithoutButton(Initial, es);
  }

  /** A motion event seen once is never ignored again. */
  lemma {:induction false} FirstMotionOnce(s: Tute, es: seq<SdlEvent>)
    requires !s.firstMotion
    ensures Events(s, es).Handled? ==> !Events(s, es).state.firstMotion
    decreases |es|
  {
    if |es| > 0 {
      var r := Event(s, es[0]);
      if r.Handled? {
        FirstMotionOnce(r.state, es[1..]);
      }
    }
  }

  // ------------------------------------------------------------ update

  /** `camera_dx`, `camera_dz` and `camera_dangle` for the held keys. */
  datatype Velocity = Velocity(dx: real, dz: real, dangle: real)

  function Contribution(pressed: set<Control>, plus: Control, minus: Control, v: real): (r: real)
    ensures plus in pressed && minus !in pressed ==> r == v
    ensures minus in pressed && plus !in pressed ==> r == -v
    ensures (plus in pressed) == (minus in pressed) ==> r == 0.0
  {
    (if plus in pressed then v else 0.0) - (if minus in pressed then v else 0.0)
  }

  /** w/s drive z, d/a drive x and left/right turn. */
  function VelocityOf(pressed: set<Control>): Velocity
  {
    Velocity(Contribution(pressed, D, A, CameraVelocity),
             Contribution(pressed, W, S, CameraVelocity),
             Contribution(pressed, TurnLeft, TurnRight, CameraAngularVelocity))
  }

  /** Holding both keys of a pair is the same as holding neither. */
  lemma OppositeKeysCancel(pressed: set<Control>)
    ensures VelocityOf(pressed + {W, S}) == VelocityOf(pressed - {W, S}).(dx := VelocityOf(pressed).dx, dangle := VelocityOf(pressed).dangle)
    ensures VelocityOf(pressed + {A, D}).dx == 0.0
    ensures VelocityOf(pressed + {TurnLeft, TurnRight}).dangle == 0.0
    ensures VelocityOf({}) == Velocity(0.0, 0.0, 0.0)
  {
  }

  /** The position change `update` applies for a velocity, `ms` milliseconds
      and an angle of `rads` radians. */
  function Displace(pos: Vec3, v: Velocity, ms: int, rads: real, trig: TrigFns): Vec3
  {
    Vec3(pos.x + (ms as real) * (trig.sin(-rads) * v.dz + trig.cos(rads) * v.dx),
         pos.y,
         pos.z + (ms as real) * (trig.cos(-rads) * v.dz + trig.sin(rads) * v.dx))
  }

  /** `update(milliseconds)` as written: `cam_rads` is a local that is 0 at
      the point the position is moved, so the heading never steers the
      movement; the value computed from the heading at the end is lost. */
  function Update(s: Tute, ms: int, trig: TrigFns): (r: Tute)
    ensures r.(pos := s.pos, heading := s.heading) == s
    ensures r.heading == s.heading + VelocityOf(s.pressed).dangle * (ms as real)
    ensures r.pos.y == s.pos.y
    ensures ExactAtZero(trig) ==>
      && r.pos.x == s.pos.x + (ms as real) * VelocityOf(s.pressed).dx
      && r.pos.z == s.pos.z + (ms as real) * VelocityOf(s.pressed).dz
  {
    var v := VelocityOf(s.pressed);
    var camRads := 0.0;
    s.(pos := Displace(s.pos, v, ms, camRads, trig),
       heading := s.heading + v.dangle * (ms as real))
  }

  /** As written, two states that differ only in heading move identically. */
  lemma UpdateIgnoresHeading(s: Tute, h: real, ms: int, trig: TrigFns)
    ensures Update(s.(heading := h), ms, trig).pos == Update(s, ms, trig).pos
  {
  }

  /** As written, consecutive updates add up: the frame rate does not
      change where the camera ends up. */
  lemma UpdateAdditive(s: Tute, m1: int, m2: int, trig: TrigFns)
    requires ExactAtZero(trig)
    ensures Update(Update(s, m1, trig), m2, trig) == Update(s, m1 + m2, trig)
  {
    var v := VelocityOf(s.pressed);
    assert (m1 as real) * v.dx + (m2 as real) * v.dx == ((m1 + m2) as real) * v.dx;
    assert (m1 as real) * v.dz + (m2 as real) * v.dz == ((m1 + m2) as real) * v.dz;
    assert v.dangle * (m1 as real) + v.dangle * (m2 as real) == v.dangle * ((m1 + m2) as real);
  }

  /** `camera_heading * M_PI / 180.0`. */
  function Radians(heading: real, pi: real): real
  {
    heading * pi / 180.0
  }

  /** `update` with the evidently intended angle: the current heading in
      radians, so that the keys move the camera relative to where it faces. */
  function UpdateAlongHeading(s: Tute, ms: int, trig: TrigFns, pi: real): (r: Tute)
    ensures r.(pos := s.pos, heading := s.heading) == s
    ensures r.heading == s.heading + VelocityOf(s.pressed).dangle * (ms as real)
    ensures r.pos.y == s.pos.y
  {
    var v := VelocityOf(s.pressed);
    s.(pos := Displace(s.pos, v, ms, Radians(s.heading, pi), trig),
       heading := s.heading + v.dangle * (ms as real))
  }

  /** With exact trigonometry the intended update turns the key velocity by
      the heading: the distance moved is the same whichever way the camera
      faces. */
  lemma {:induction false} AlongHeadingKeepsSpeed(s: Tute, ms: int, trig: TrigFns, pi: real)
    requires Pythagorean(trig) && Symmetric(trig)
    ensures var r := UpdateAlongHeading(s, ms, trig, pi);
      var v := VelocityOf(s.pressed);
      var ddx, ddz := r.pos.x - s.pos.x, r.pos.z - s.pos.z;
      ddx * ddx + ddz * ddz == (ms as real) * (ms as real) * (v.dx * v.dx + v.dz * v.dz)
  {
    var v := VelocityOf(s.pressed);
    var a := Radians(s.heading, pi);
    var sn, cs := trig.sin(a), trig.cos(a);
    assert trig.sin(-a) == -sn && trig.cos(-a) == cs;
    assert sn * sn + cs * cs == 1.0;
    var m := ms as real;
    RotationLength(sn, cs, v.dx, v.dz);
    var ddx := m * (-sn * v.dz + cs * v.dx);
    var ddz := m * (cs * v.dz + sn * v.dx);
    assert ddx * ddx + ddz * ddz == m * m * ((-sn * v.dz + cs * v.dx) * (-sn * v.dz + cs * v.dx)
                                             + (cs * v.dz + sn * v.dx) * (cs * v.dz + sn * v.dx));
  }

  lemma RotationLength(sn: real, cs: real, dx: real, dz: real)
    requires sn * sn + cs * cs == 1.0
    ensures (-sn * dz + cs * dx) * (-sn * dz + cs * dx) + (cs * dz + sn * dx) * (cs * dz + sn * dx)
         == dx * dx + dz * dz
  {
    assert (-sn * dz + cs * dx) * (-sn * dz + cs * dx) + (cs * dz + sn * dx) * (cs * dz + sn * dx)
        == (sn * sn + cs * cs) * (dx * dx + dz * dz);
  }

  /** The two updates part ways as soon as the heading has a non-zero sine:
      holding 'w' alone, the written update leaves x where it is while the
      intended one moves it. From start-up the heading is 180 degrees,
      whose sine is zero, so the difference shows only after turning. */
  lemma HeadingIgnoredAsWritten(s: Tute, ms: int, trig: TrigFns, pi: real)
    requires ExactAtZero(trig) && Symmetric(trig)
    requires s.pressed == {W} && ms != 0
    requires trig.sin(Radians(s.heading, pi)) != 0.0
    ensures Update(s, ms, trig).pos.x == s.pos.x
    ensures UpdateAlongHeading(s, ms, trig, pi).pos.x != s.pos.x
  {
    var a := Radians(s.heading, pi);
    assert trig.sin(-a) == -trig.sin(a);
    var d := (ms as real) * (trig.sin(-a) * CameraVelocity);
    assert (ms as real) != 0.0;
    assert trig.sin(-a) * CameraVelocity != 0.0;
    assert d != 0.0;
  }
}

=== FILE: sinewave_keys.dfy ===
/** The keyboard state machine of the sine-wave demo (src/sinewave3D-glm.cpp):
    the `Global g` record of display toggles and the `keyboard` handler
    that changes it one key at a time.

    Fields that only the clock, the frame-rate statistics or the window
    size write (frameCount, frameRate, width, ...) are not modelled; `t`
    and `lastT` are kept because 'a' writes `lastT` and drawing reads `t`.
    The eleven booleans that one key each negates are held as a set.
    Shininess is a whole number: every value the keys can produce is a
    multiple of 5 between 5 and 125, which `float` holds exactly. */
module SineWaveKeys {
  import opened Toggles

  /** Which page the on-screen display shows. */
  datatype Osd = Frame | Flags | Values

  /** The boolean fields that a single key negates ('b', 'd', 'f', 'g', 'l',
      'm', 'n', 'p', 'v', 'w', '4' in that order). */
  datatype FlagName =
    | FlatShading | PositionalLight | FixedLighting | UseShaders | Lighting
    | Phong | DrawNormals | PerPixel | Vbo | Wireframe | MultiView

  /** `Global g`. The eleven single-key booleans are held as the set `on`
      of those that are true; the remaining fields are as in the source. */
  datatype Global = Global(
    on: set<FlagName>,
    animate: bool, t: real, lastT: real, twoside: bool,
    tess: int, waveDim: int,
    displayOSD: bool, consolePM: bool,
    shininess: int, option: Osd, wave: bool)
  {
    predicate Has(f: FlagName) { f in on }
  }

  /** Start-up values: only lighting is on among the flags. */
  const Initial: Global := Global(
    {Lighting},
    false, 0.0, 0.0, false,
    8, 2,
    true, false,
    50, Frame, false)

  /** The shininess bounds enforced by 'h' and 'H'. */
  const MinShininess: int := 5
  const MaxShininess: int := 125
  const ShininessStep: int := 5

  /** What the program does after a key: exit (Escape) or carry on. */
  datatype KeyOutcome = Exit | Continue(state: Global)

  /** What a key asks for, decoded from the character. */
  datatype Command =
    | Quit | ToggleAnimate | ToggleFlag(flag: FlagName) | ToggleConsole
    | Shinier | Duller | NextOsdPage | ToggleShape | NextDimension
    | FinerTess | CoarserTess | NoCommand

  const Escape: char := 27 as char

  /** The keys that negate one boolean field and do nothing else. */
  predicate FlagKey(key: char)
  {
    key == 'b' || key == 'd' || key == 'f' || key == 'g' || key == 'l' || key == 'm'
    || key == 'n' || key == 'p' || key == 'v' || key == 'w' || key == '4'
  }

  /** Every key the handler has a case for. */
  predicate HandledKey(key: char)
  {
    FlagKey(key) || key == Escape || key == 'a' || key == 'c' || key == 'H' || key == 'h'
    || key == 'o' || key == 's' || key == 'z' || key == '+' || key == '-'
  }

  /** The `switch (key)` of `keyboard`. */
  function Decode(key: char): (c: Command)
    ensures c == Quit <==> key == Escape
    ensures c.ToggleFlag? <==> FlagKey(key)
    ensures c == NoCommand <==> !HandledKey(key)
    ensures c == ToggleFlag(FlatShading) <==> key == 'b'
    ensures c == ToggleFlag(PositionalLight) <==> key == 'd'
    ensures c == ToggleFlag(FixedLighting) <==> key == 'f'
    ensures c == ToggleFlag(UseShaders) <==> key == 'g'
    ensures c == ToggleFlag(Lighting) <==> key == 'l'
    ensures c == ToggleFlag(Phong) <==> key == 'm'
    ensures c == ToggleFlag(DrawNormals) <==> key == 'n'
    ensures c == ToggleFlag(PerPixel) <==> key == 'p'
    ensures c == ToggleFlag(Vbo) <==> key == 'v'
    ensures c == ToggleFlag(Wireframe) <==> key == 'w'
    ensures c == ToggleFlag(MultiView) <==> key == '4'
    ensures c == ToggleAnimate <==> key == 'a'
    ensures c == ToggleConsole <==> key == 'c'
    ensures c == Shinier <==> key == 'H'
    ensures c == Duller <==> key == 'h'
    ensures c == NextOsdPage <==> key == 'o'
    ensures c == ToggleShape <==> key == 's'
    ensures c == NextDimension <==> key == 'z'
    ensures c == FinerTess <==> key == '+'
    ensures c == CoarserTess <==> key == '-'
  {
    if key == Escape then Quit
    else if key == 'a' then ToggleAnimate
    else if key == 'b' then ToggleFlag(FlatShading)
    else if key == 'c' then ToggleConsole
    else if key == 'd' then ToggleFlag(PositionalLight)
    else if key == 'f' then ToggleFlag(FixedLighting)
    else if key == 'g' then ToggleFlag(UseShaders)
    else if key == 'H' then Shinier
    else if key == 'h' then Duller
    else if key == 'l' then ToggleFlag(Lighting)
    else if key == 'm' then ToggleFlag(Phong)
    else if key == 'n' then ToggleFlag(DrawNormals)
    else if key == 'o' then NextOsdPage
    else if key == 'p' then ToggleFlag(PerPixel)
    else if key == 's' then ToggleShape
    else if key == 'v' then ToggleFlag(Vbo)
    else if key == 'w' then ToggleFlag(Wireframe)
    else if key == 'z' then NextDimension
    else if key == '4' then ToggleFlag(MultiView)
    else if key == '+' then FinerTess
    else if key == '-' then CoarserTess
    else NoCommand
  }

  /** The invariant every reachable state keeps. */
  predicate Inv(g: Global)
  {
    && TessLevel(g.tess)
    && MinShininess <= g.shininess <= MaxShininess
    && g.shininess % ShininessStep == 0
    && (g.waveDim == 2 || g.waveDim == 3)
    && (g.animate ==> g.wave)
    && g.consolePM != g.displayOSD
  }

  /** The position of a page in the `OSD` enum. */
  function OsdIndex(o: Osd): int
  {
    match o
    case Frame => 0
    case Flags => 1
    case Values => 2
  }

  /** 'o': `option + 1`, wrapping past VALUES back to FRAME. */
  function NextOsd(o: Osd): (r: Osd)
    ensures r != o
    ensures OsdIndex(r) == (OsdIndex(o) + 1) % 3
  {
    match o
    case Frame => Flags
    case Flags => Values
    case Values => Frame
  }

  /** The effect of one decoded key; `now` is the elapsed time in seconds
      that the handler reads from GLUT when 'a' starts the animation. */
  function Apply(g: Global, c: Command, now: real): (r: KeyOutcome)
    ensures r.Exit? <==> c == Quit
    ensures c.ToggleFlag? ==> r.Continue? && r.state.(on := g.on) == g
    ensures c.ToggleFlag? ==> forall f :: r.state.Has(f) <==> (g.Has(f) != (f == c.flag))
    ensures !c.ToggleFlag? && r.Continue? ==> r.state.on == g.on
    ensures c == ToggleConsole ==>
      r == Continue(g.(consolePM := !g.consolePM, displayOSD := !g.displayOSD))
    ensures c == Shinier ==>
      r == Continue(g.(shininess := if g.shininess + 5 > MaxShininess then MaxShininess else g.shininess + 5))
    ensures c == Duller ==>
      r == Continue(g.(shininess := if g.shininess - 5 < MinShininess then MinShininess else g.shininess - 5))
    ensures c == NextOsdPage ==> r == Continue(g.(option := NextOsd(g.option)))
    ensures c == NextDimension ==> r == Continue(g.(waveDim := NextWaveDim(g.waveDim)))
    ensures c == FinerTess ==> r == Continue(g.(tess := g.tess * 2))
    ensures c == CoarserTess ==> r == Continue(g.(tess := HalveTess(g.tess)))
    ensures c == ToggleAnimate && !g.wave ==> r == Continue(g)
    ensures c == ToggleAnimate && g.wave ==>
      r == Continue(g.(animate := !g.animate, lastT := if g.animate then g.lastT else now))
    ensures c == ToggleShape ==>
      r == Continue(g.(wave := !g.wave, animate := g.animate && !g.wave))
    ensures c == NoCommand ==> r == Continue(g)
  {
    match c
    case Quit => Exit
    case ToggleAnimate =>
      if g.wave then
        var animate := !g.animate;
        Continue(g.(animate := animate, lastT := if animate then now else g.lastT))
      else Continue(g)
    case ToggleFlag(f) => Continue(g.(on := Toggle(g.on, f)))
    case ToggleConsole => Continue(g.(consolePM := !g.consolePM, displayOSD := !g.displayOSD))
    case Shinier =>
      var s := g.shininess + ShininessStep;
      Continue(g.(shininess := if s > MaxShininess then MaxShininess else s))
    case Duller =>
      var s := g.shininess - ShininessStep;
      Continue(g.(shininess := if s < MinShininess then MinShininess else s))
    case NextOsdPage => Continue(g.(option := NextOsd(g.option)))
    case ToggleShape =>
      var wave := !g.wave;
      Continue(g.(wave := wave, animate := if wave then g.animate else false))
    case NextDimension => Continue(g.(waveDim := NextWaveDim(g.waveDim)))
    case FinerTess => Continue(g.(tess := DoubleTess(g.tess)))
    case CoarserTess => Continue(g.(tess := HalveTess(g.tess)))
    case NoCommand => Continue(g)
  }

  /** Every key keeps the invariant. */
  lemma ApplyPreservesInv(g: Global, c: Command, now: real)
    requires Inv(g)
    ensures Apply(g, c, now).Continue? ==> Inv(Apply(g, c, now).state)
  {
  }

  /** `keyboard(key, x, y)`. */
  function Keyboard(g: Global, key: char, now: real): (r: KeyOutcome)
    ensures r.Exit? <==> key == Escape
    ensures !HandledKey(key) ==> r == Continue(g)
    ensures FlagKey(key) ==> r.Continue? && r.state.(on := g.on) == g
    ensures FlagKey(key) ==> r.state.on == Toggle(g.on, Decode(key).flag)
  {
    Apply(g, Decode(key), now)
  }

  /** One key event: the key and the clock reading when it arrived. */
  datatype KeyPress = KeyPress(key: char, now: real)

  /** The state after a sequence of key events, or Exit if Escape was among
      them (later keys are never seen). */
  function Run(g: Global, presses: seq<KeyPress>): KeyOutcome
    decreases |presses|
  {
    if |presses| == 0 then Continue(g)
    else match Keyboard(g, presses[0].key, presses[0].now)
      case Exit => Exit
      case Continue(g') => Run(g', presses[1..])
  }

  lemma InitialInv()
    ensures Inv(Initial)
  {
  }

  lemma {:induction false} RunPreservesInv(g: Global, presses: seq<KeyPress>)
    requires Inv(g)
    ensures Run(g, presses).Continue? ==> Inv(Run(g, presses).state)
    decreases |presses|
  {
    if |presses| > 0 {
      var r := Keyboard(g, presses[0].key, presses[0].now);
      ApplyPreservesInv(g, Decode(presses[0].key), presses[0].now);
      if r.Continue? {
        RunPreservesInv(r.state, presses[1..]);
      }
    }
  }

  /** Whatever keys are pressed from start-up, the tessellation is 8 * 2^k
      for some k, shininess is a multiple of 5 within [5, 125], the wave
      dimension is 2 or 3, animation implies wave mode, and exactly one of
      console output and on-screen display is on. */
  lemma ReachableInv(presses: seq<KeyPress>)
    ensures Run(Initial, presses).Continue? ==> Inv(Run(Initial, presses).state)
    ensures Run(Initial, presses).Continue? ==>
      exists k: nat :: Run(Initial, presses).state.tess == MinTess * Pow2(k)
  {
    InitialInv();
    RunPreservesInv(Initial, presses);
    if Run(Initial, presses).Continue? {
      TessLevelIsPow2(Run(Initial, presses).state.tess);
    }
  }

  /** Each flag key is an involution. */
  lemma FlagKeyTwice(g: Global, k: char, now1: real, now2: real)
    requires FlagKey(k)
    ensures Keyboard(Keyboard(g, k, now1).state, k, now2) == Continue(g)
  {
  }

  /** 'c' twice, 'z' twice (on a valid dimension) and 'o' three times
      restore the state. */
  lemma CyclingKeysReturn(g: Global, now: real)
    ensures Keyboard(Keyboard(g, 'c', now).state, 'c', now) == Continue(g)
    ensures g.waveDim == 2 || g.waveDim == 3 ==>
      Keyboard(Keyboard(g, 'z', now).state, 'z', now) == Continue(g)
    ensures Keyboard(Keyboard(Keyboard(g, 'o', now).state, 'o', now).state, 'o', now) == Continue(g)
  {
    assert Decode('c') == ToggleConsole;
    assert Decode('z') == NextDimension;
    assert Decode('o') == NextOsdPage;
  }

  /** 'H' raises shininess by 5 up to 125 and 'h' lowers it by 5 down to 5;
      each undoes the other away from the bound, and at the bound the key
      does nothing. */
  lemma ShininessKeys(g: Global, now: real)
    requires Inv(g)
    ensures Keyboard(g, 'H', now).state.shininess == if g.shininess < MaxShininess then g.shininess + 5 else MaxShininess
    ensures Keyboard(g, 'h', now).state.shininess == if g.shininess > MinShininess then g.shininess - 5 else MinShininess
    ensures g.shininess < MaxShininess ==> Keyboard(Keyboard(g, 'H', now).state, 'h', now) == Continue(g)
    ensures g.shininess > MinShininess ==> Keyboard(Keyboard(g, 'h', now).state, 'H', now) == Continue(g)
    ensures g.shininess == MaxShininess ==> Keyboard(g, 'H', now) == Continue(g)
    ensures g.shininess == MinShininess ==> Keyboard(g, 'h', now) == Continue(g)
  {
    assert Decode('H') == Shinier;
    assert Decode('h') == Duller;
  }

  /** '-' undoes '+', and '+' undoes '-' above the floor of 8. */
  lemma TessKeys(g: Global, now: real)
    requires Inv(g)
    ensures Keyboard(Keyboard(g, '+', now).state, '-', now) == Continue(g)
    ensures g.tess > MinTess ==> Keyboard(Keyboard(g, '-', now).state, '+', now) == Continue(g)
    ensures g.tess == MinTess ==> Keyboard(g, '-', now) == Continue(g)
  {
    HalveUndoesDouble(g.tess);
    if g.tess > MinTess {
      DoubleUndoesHalve(g.tess);
    }
  }

  function RepeatKey(key: char, n: nat): (ps: seq<KeyPress>)
    ensures |ps| == n
    ensures forall i :: 0 <= i < n ==> ps[i].key == key
  {
    if n == 0 then [] else [KeyPress(key, 0.0)] + RepeatKey(key, n - 1)
  }

  /** '+' doubles the tessellation and changes nothing else. */
  lemma PlusDoubles(g: Global, now: real)
    ensures Keyboard(g, '+', now) == Continue(g.(tess := g.tess * 2))
  {
    assert Decode('+') == FinerTess;
  }

  /** A sequence that starts with '+' runs on from the doubled state. */
  lemma RunPlus(g: Global, ps: seq<KeyPress>)
    requires |ps| > 0 && ps[0].key == '+'
    ensures Run(g, ps) == Run(g.(tess := g.tess * 2), ps[1..])
  {
    PlusDoubles(g, ps[0].now);
  }

  lemma RepeatKeyTail(key: char, n: nat)
    requires n > 0
    ensures RepeatKey(key, n)[0].key == key
    ensures RepeatKey(key, n)[1..] == RepeatKey(key, n - 1)
  {
  }

  /** n presses of '+' multiply the tessellation by 2^n; with Pow2IsTessLevel
      this shows every level 8 * 2^n is reachable from start-up. */
  lemma {:induction false} PlusMultiplies(g: Global, n: nat)
    ensures Run(g, RepeatKey('+', n)) == Continue(g.(tess := g.tess * Pow2(n)))
    decreases n
  {
    if n > 0 {
      RepeatKeyTail('+', n);
      RunPlus(g, RepeatKey('+', n));
      PlusMultiplies(g.(tess := g.tess * 2), n - 1);
      DoubleThenPow2(g.tess, n);
    }
  }

  lemma DoubleThenPow2(t: int, n: nat)
    requires n > 0
    ensures (t * 2) * Pow2(n - 1) == t * Pow2(n)
  {
    var p := Pow2(n - 1);
    assert (t * 2) * p == t * (2 * p);
  }

  /** 'a' only acts in wave mode, where it flips animation and, when it
      starts the animation, restarts the clock at `now`. */
  lemma AnimateKey(g: Global, now: real)
    ensures !g.wave ==> Keyboard(g, 'a', now) == Continue(g)
    ensures g.wave ==> Keyboard(g, 'a', now).state.animate == !g.animate
    ensures g.wave && !g.animate ==> Keyboard(g, 'a', now).state.lastT == now
    ensures Keyboard(g, 'a', now).state.(animate := g.animate, lastT := g.lastT) == g
  {
  }

  /** 'c' flips console output and the on-screen display together and
      changes nothing else, so from a reachable state exactly one of them
      stays on. */
  lemma ConsoleKey(g: Global, now: real)
    ensures Keyboard(g, 'c', now) == Continue(g.(consolePM := !g.consolePM, displayOSD := !g.displayOSD))
    ensures Inv(g) ==> Keyboard(g, 'c', now).state.consolePM != Keyboard(g, 'c', now).state.displayOSD
  {
    assert Decode('c') == ToggleConsole;
  }

  /** 's' flips wave mode and stops the animation on leaving it; pressing
      it twice restores everything except that the animation is stopped. */
  lemma ShapeKey(g: Global, now: real)
    ensures Keyboard(g, 's', now).state.wave == !g.wave
    ensures g.wave ==> !Keyboard(g, 's', now).state.animate
    ensures Keyboard(Keyboard(g, 's', now).state, 's', now) == Continue(g.(animate := false))
    ensures Inv(g) && !g.wave ==> Keyboard(Keyboard(g, 's', now).state, 's', now) == Continue(g)
  {
    assert Decode('s') == ToggleShape;
  }
}

=== FILE: sphere.dfy ===
/** The sphere of the shader tutorial (examples/5-tutorial/tute-shaders):
    `generate_sphere` fills a vertex array and a normal array with a
    (stacks + 1) x (slices + 1) latitude/longitude grid, row by row, and
    `draw_sphere` walks the stacks x slices quads, emitting two triangles
    per quad by index into those arrays.

    Angles are reals and `sinf`/`cosf` are the uninterpreted functions of a
    `TrigFns`; pi is a parameter. */
module Sphere {
  import opened Geometry

  /** `num_verts = (stacks + 1) * (slices + 1)`. */
  function NumVerts(stacks: int, slices: int): int
  {
    (stacks + 1) * (slices + 1)
  }

  /** Where grid point (stack, slice) is stored: `stack * (slices + 1) + slice`. */
  function VertexIndex(slices: int, stack: int, slice: int): int
  {
    stack * (slices + 1) + slice
  }

  /** Grid point (stack, slice) exists: 0 <= stack <= stacks, 0 <= slice <= slices. */
  predicate OnGrid(stacks: int, slices: int, stack: int, slice: int)
  {
    0 <= stack <= stacks && 0 <= slice <= slices
  }

  lemma MulLeq(a: int, b: int, c: int)
    requires 0 <= a <= b && c >= 0
    ensures a * c <= b * c
  {
  }

  /** Within a row the index stays below the next row's first index. */
  lemma RowBounds(slices: int, stack: int, slice: int)
    requires 0 <= slice <= slices
    ensures VertexIndex(slices, stack, 0) <= VertexIndex(slices, stack, slice)
    ensures VertexIndex(slices, stack, slice) < VertexIndex(slices, stack + 1, 0)
  {
    assert (stack + 1) * (slices + 1) == stack * (slices + 1) + slices + 1;
  }

  /** One past the end of a row is the start of the next. */
  lemma NextRow(slices: int, stack: int)
    ensures VertexIndex(slices, stack, slices + 1) == VertexIndex(slices, stack + 1, 0)
  {
    assert (stack + 1) * (slices + 1) == stack * (slices + 1) + slices + 1;
  }

  /** Every grid point is stored inside the arrays. */
  lemma {:induction false} IndexInRange(stacks: int, slices: int, stack: int, slice: int)
    requires OnGrid(stacks, slices, stack, slice)
    ensures 0 <= VertexIndex(slices, stack, slice) < NumVerts(stacks, slices)
  {
    RowBounds(slices, stack, slice);
    MulLeq(0, stack, slices + 1);
    MulLeq(stack + 1, stacks + 1, slices + 1);
  }

  lemma AllIndicesInRange(stacks: int, slices: int)
    ensures forall stack, slice :: OnGrid(stacks, slices, stack, slice) ==>
      0 <= VertexIndex(slices, stack, slice) < NumVerts(stacks, slices)
  {
    forall stack, slice | OnGrid(stacks, slices, stack, slice)
      ensures 0 <= VertexIndex(slices, stack, slice) < NumVerts(stacks, slices)
    {
      IndexInRange(stacks, slices, stack, slice);
    }
  }

  /** Division by the row length recovers the grid point from its index. */
  lemma {:induction false} IndexDecodes(slices: int, stack: int, slice: int)
    requires 0 <= slice <= slices && stack >= 0
    ensures VertexIndex(slices, stack, slice) / (slices + 1) == stack
    ensures VertexIndex(slices, stack, slice) % (slices + 1) == slice
  {
    var d := slices + 1;
    var k := VertexIndex(slices, stack, slice);
    var q, r := k / d, k % d;
    assert k == q * d + r;
    if q < stack {
      MulLeq(q + 1, stack, d);
      assert false;
    } else if q > stack {
      MulLeq(stack + 1, q, d);
      assert false;
    }
  }

  /** No two grid points share a slot. */
  lemma IndexInjective(slices: int, st1: int, sl1: int, st2: int, sl2: int)
    requires 0 <= sl1 <= slices && 0 <= sl2 <= slices && st1 >= 0 && st2 >= 0
    requires VertexIndex(slices, st1, sl1) == VertexIndex(slices, st2, sl2)
    ensures st1 == st2 && sl1 == sl2
  {
    IndexDecodes(slices, st1, sl1);
    IndexDecodes(slices, st2, sl2);
  }

  /** Every slot holds some grid point: the arrays have no gaps. */
  lemma {:induction false} IndexOnto(stacks: int, slices: int, k: int)
    requires stacks >= 0 && slices >= 0
    requires 0 <= k < NumVerts(stacks, slices)
    ensures OnGrid(stacks, slices, k / (slices + 1), k % (slices + 1))
    ensures VertexIndex(slices, k / (slices + 1), k % (slices + 1)) == k
  {
    var d := slices + 1;
    var q := k / d;
    if q > stacks {
      MulLeq(stacks + 1, q, d);
      assert false;
    }
  }

  /** The sphere's parameters as `generate_sphere` receives them. */
  datatype SphereParams = SphereParams(radius: real, stacks: int, slices: int, trig: TrigFns, pi: real)
  {
    predicate Valid()
    {
      radius != 0.0 && stacks >= 1 && slices >= 1
    }
  }

  /** `vertices[i]` for grid point (stack, slice): latitude
      `phi = pi * stack / stacks`, longitude `theta = 2 * pi * slice / slices`. */
  function SpherePoint(p: SphereParams, stack: int, slice: int): Vec3
    requires p.Valid()
  {
    var phi := Latitude(p, stack);
    var theta := Longitude(p, slice);
    Vec3(p.radius * p.trig.sin(phi) * p.trig.cos(theta),
         p.radius * p.trig.sin(phi) * p.trig.sin(theta),
         p.radius * p.trig.cos(phi))
  }

  /** `phi = M_PI * stack / stacks`. */
  function Latitude(p: SphereParams, stack: int): real
    requires p.Valid()
  {
    p.pi * (stack as real) / (p.stacks as real)
  }

  /** `theta = 2.0 * M_PI * slice / slices`. */
  function Longitude(p: SphereParams, slice: int): real
    requires p.Valid()
  {
    2.0 * p.pi * (slice as real) / (p.slices as real)
  }

  /** `normals[i]`: the vertex divided by the radius. */
  function SphereNormal(p: SphereParams, stack: int, slice: int): Vec3
    requires p.Valid()
  {
    var v := SpherePoint(p, stack, slice);
    Vec3(v.x / p.radius, v.y / p.radius, v.z / p.radius)
  }

  /** What slot k of the arrays should hold. */
  function SlotPoint(p: SphereParams, k: int): Vec3
    requires p.Valid()
  {
    SpherePoint(p, k / (p.slices + 1), k % (p.slices + 1))
  }

  function SlotNormal(p: SphereParams, k: int): Vec3
    requires p.Valid()
  {
    SphereNormal(p, k / (p.slices + 1), k % (p.slices + 1))
  }

  /** `generate_sphere(radius, stacks, slices)`: the arrays have one slot per
      grid point and the slot of (stack, slice) holds that point and its
      normal. The arrays start out as `zero` everywhere (the model's stand-in
      for freshly allocated memory); the loop writes every slot. */
  method GenerateSphere(p: SphereParams, zero: Vec3) returns (vertices: seq<Vec3>, normals: seq<Vec3>)
    requires p.Valid()
    ensures |vertices| == NumVerts(p.stacks, p.slices) && |normals| == NumVerts(p.stacks, p.slices)
    ensures forall stack, slice :: OnGrid(p.stacks, p.slices, stack, slice) ==>
      && vertices[VertexIndex(p.slices, stack, slice)] == SpherePoint(p, stack, slice)
      && normals[VertexIndex(p.slices, stack, slice)] == SphereNormal(p, stack, slice)
  {
    var num := NumVerts(p.stacks, p.slices);
    MulLeq(1, p.stacks + 1, p.slices + 1);
    vertices := seq(num, _ => zero);
    normals := seq(num, _ => zero);
    var stack := 0;
    while stack <= p.stacks
      invariant 0 <= stack <= p.stacks + 1
      invariant |vertices| == num && |normals| == num
      invariant Filled(p, vertices, normals, VertexIndex(p.slices, stack, 0))
    {
      var slice := 0;
      while slice <= p.slices
        invariant 0 <= slice <= p.slices + 1
        invariant |vertices| == num && |normals| == num
        invariant Filled(p, vertices, normals, VertexIndex(p.slices, stack, slice))
      {
        var i := stack * (p.slices + 1) + slice;
        IndexInRange(p.stacks, p.slices, stack, slice);
        SlotOf(p, stack, slice);
        var v := SpherePoint(p, stack, slice);
        vertices := vertices[i := v];
        normals := normals[i := Vec3(v.x / p.radius, v.y / p.radius, v.z / p.radius)];
        slice := slice + 1;
      }
      NextRow(p.slices, stack);
      stack := stack + 1;
    }
    FilledPlacesEveryPoint(p, vertices, normals);
  }

  /** The first `upTo` slots hold their points and normals. */
  predicate Filled(p: SphereParams, vertices: seq<Vec3>, normals: seq<Vec3>, upTo: int)
    requires p.Valid()
  {
    forall k :: 0 <= k < upTo && k < |vertices| && k < |normals| ==>
      vertices[k] == SlotPoint(p, k) && normals[k] == SlotNormal(p, k)
  }

  /** Once every slot is filled, each grid point sits in its own slot. */
  lemma FilledPlacesEveryPoint(p: SphereParams, vertices: seq<Vec3>, normals: seq<Vec3>)
    requires p.Valid()
    requires |vertices| == NumVerts(p.stacks, p.slices) && |normals| == NumVerts(p.stacks, p.slices)
    requires Filled(p, vertices, normals, NumVerts(p.stacks, p.slices))
    ensures forall stack, slice :: OnGrid(p.stacks, p.slices, stack, slice) ==>
      && vertices[VertexIndex(p.slices, stack, slice)] == SpherePoint(p, stack, slice)
      && normals[VertexIndex(p.slices, stack, slice)] == SphereNormal(p, stack, slice)
  {
    AllIndicesInRange(p.stacks, p.slices);
    forall stack, slice | OnGrid(p.stacks, p.slices, stack, slice)
      ensures vertices[VertexIndex(p.slices, stack, slice)] == SpherePoint(p, stack, slice)
      ensures normals[VertexIndex(p.slices, stack, slice)] == SphereNormal(p, stack, slice)
    {
      IndexInRange(p.stacks, p.slices, stack, slice);
      SlotOf(p, stack, slice);
    }
  }

  lemma SlotOf(p: SphereParams, stack: int, slice: int)
    requires p.Valid() && 0 <= slice <= p.slices && stack >= 0
    ensures SlotPoint(p, VertexIndex(p.slices, stack, slice)) == SpherePoint(p, stack, slice)
    ensures SlotNormal(p, VertexIndex(p.slices, stack, slice)) == SphereNormal(p, stack, slice)
  {
    IndexDecodes(p.slices, stack, slice);
  }

  // ---------------------------------------------------------- geometry

  function Dot(a: Vec3, b: Vec3): real
  {
    a.x * b.x + a.y * b.y + a.z * b.z
  }

  /** The unit direction of grid point (stack, slice):
      (sin phi cos theta, sin phi sin theta, cos phi). */
  function Direction(p: SphereParams, stack: int, slice: int): Vec3
    requires p.Valid()
  {
    var phi, theta := Latitude(p, stack), Longitude(p, slice);
    Vec3(p.trig.sin(phi) * p.trig.cos(theta), p.trig.sin(phi) * p.trig.sin(theta), p.trig.cos(phi))
  }

  lemma PointAlongDirection(p: SphereParams, stack: int, slice: int)
    requires p.Valid()
    ensures SpherePoint(p, stack, slice) == Scale(p.radius, Direction(p, stack, slice))
    ensures SphereNormal(p, stack, slice) == Direction(p, stack, slice)
  {
    var u := Direction(p, stack, slice);
    assert SpherePoint(p, stack, slice) == Scale(p.radius, u);
    DivideOut(p.radius, u.x);
    DivideOut(p.radius, u.y);
    DivideOut(p.radius, u.z);
  }

  lemma DirectionIsUnit(p: SphereParams, stack: int, slice: int)
    requires p.Valid() && Pythagorean(p.trig)
    ensures Dot(Direction(p, stack, slice), Direction(p, stack, slice)) == 1.0
  {
    var phi, theta := Latitude(p, stack), Longitude(p, slice);
    UnitSum(p.trig.sin(phi), p.trig.cos(phi), p.trig.sin(theta), p.trig.cos(theta));
  }

  /** With exact trigonometry every generated vertex lies on the sphere of
      the given radius and every normal has unit length and points along
      the vertex. */
  lemma {:induction false} OnSphere(p: SphereParams, stack: int, slice: int)
    requires p.Valid() && Pythagorean(p.trig)
    ensures Dot(SpherePoint(p, stack, slice), SpherePoint(p, stack, slice)) == p.radius * p.radius
    ensures Dot(SphereNormal(p, stack, slice), SphereNormal(p, stack, slice)) == 1.0
    ensures SpherePoint(p, stack, slice) == Scale(p.radius, SphereNormal(p, stack, slice))
  {
    var u := Direction(p, stack, slice);
    PointAlongDirection(p, stack, slice);
    DirectionIsUnit(p, stack, slice);
    ScaledDot(p.radius, u);
  }

  lemma UnitSum(sp: real, cp: real, st: real, ct: real)
    requires sp * sp + cp * cp == 1.0 && st * st + ct * ct == 1.0
    ensures (sp * ct) * (sp * ct) + (sp * st) * (sp * st) + cp * cp == 1.0
  {
    assert (sp * ct) * (sp * ct) + (sp * st) * (sp * st) == (sp * sp) * (st * st + ct * ct);
  }

  function Scale(r: real, u: Vec3): Vec3
  {
    Vec3(r * u.x, r * u.y, r * u.z)
  }

  lemma ScaledDot(r: real, u: Vec3)
    ensures Dot(Scale(r, u), Scale(r, u)) == r * r * Dot(u, u)
  {
  }

  lemma DivideOut(r: real, a: real)
    requires r != 0.0
    ensures (r * a) / r == a
  {
  }

  /** Stack 0 is the north pole: with sin 0 = 0 and cos 0 = 1 all its
      slices land on (0, 0, radius). */
  lemma NorthPole(p: SphereParams, slice: int)
    requires p.Valid() && ExactAtZero(p.trig)
    ensures SpherePoint(p, 0, slice) == Vec3(0.0, 0.0, p.radius)
  {
    assert p.pi * (0 as real) / (p.stacks as real) == 0.0;
  }

  // -------------------------------------------------------------- draw

  /** One `GL_TRIANGLES` triangle, by array slot; the normal sent with each
      corner is the one stored in the same slot. */
  datatype Triangle = Triangle(a: int, b: int, c: int)

  /** The two triangles of quad (stack, slice), in emission order: with
      corners p = (stack, slice), q = (stack + 1, slice),
      r = (stack + 1, slice + 1) and s = (stack, slice + 1), first p q r,
      then p r s. */
  function QuadTriangle(slices: int, stack: int, slice: int, second: bool): Triangle
  {
    var p := VertexIndex(slices, stack, slice);
    var q := VertexIndex(slices, stack + 1, slice);
    var r := VertexIndex(slices, stack + 1, slice + 1);
    var s := VertexIndex(slices, stack, slice + 1);
    if !second then Triangle(p, q, r) else Triangle(p, r, s)
  }

  /** All three corners are slots of arrays of `num` entries, and they
      are three different slots. */
  predicate Proper(t: Triangle, num: int)
  {
    && 0 <= t.a < num && 0 <= t.b < num && 0 <= t.c < num
    && t.a != t.b && t.b != t.c && t.a != t.c
  }

  /** The number of triangles in the rows; each sends three vertices. */
  function TriangleCount(rows: seq<seq<Triangle>>): nat
  {
    if |rows| == 0 then 0 else TriangleCount(rows[..|rows| - 1]) + |rows[|rows| - 1]|
  }

  lemma TriangleCountAppend(rows: seq<seq<Triangle>>, row: seq<Triangle>)
    ensures TriangleCount(rows + [row]) == TriangleCount(rows) + |row|
  {
    assert (rows + [row])[..|rows|] == rows;
  }

  /** Row `stack` as `draw_sphere` emits it: the 2 * slices triangles of
      that stack in order, each proper for arrays of `NumVerts` slots. */
  predicate RowOk(row: seq<Triangle>, stacks: int, slices: int, stack: int)
  {
    && |row| == (if slices > 0 then 2 * slices else 0)
    && (forall k :: 0 <= k < |row| ==> row[k] == QuadTriangle(slices, stack, k / 2, k % 2 == 1))
    && (forall k :: 0 <= k < |row| ==> Proper(row[k], NumVerts(stacks, slices)))
  }

  /** `draw_sphere(stacks, slices)`: row `stack` holds the 2 * slices
      triangles of that stack, two per quad in slice order, so
      6 * stacks * slices vertices in all. Called with the `stacks` and
      `slices` the arrays were generated with, it only references slots
      of those arrays, never the same slot twice in one triangle. */
  method DrawSphere(stacks: int, slices: int) returns (rows: seq<seq<Triangle>>)
    ensures |rows| == if stacks > 0 then stacks else 0
    ensures forall stack :: 0 <= stack < |rows| ==> |rows[stack]| == if slices > 0 then 2 * slices else 0
    ensures forall stack, k :: 0 <= stack < |rows| && 0 <= k < |rows[stack]| ==>
      rows[stack][k] == QuadTriangle(slices, stack, k / 2, k % 2 == 1)
    ensures forall stack, k :: 0 <= stack < |rows| && 0 <= k < |rows[stack]| ==>
      Proper(rows[stack][k], NumVerts(stacks, slices))
    ensures stacks > 0 && slices > 0 ==> 3 * TriangleCount(rows) == 6 * stacks * slices
  {
    rows := [];
    var stack := 0;
    var perRow := if slices > 0 then 2 * slices else 0;
    while stack < stacks
      invariant stacks > 0 ==> 0 <= stack <= stacks
      invariant |rows| == if stacks > 0 then stack else 0
      invariant forall st :: 0 <= st < |rows| ==> RowOk(rows[st], stacks, slices, st)
      invariant TriangleCount(rows) == |rows| * perRow
    {
      var row := DrawStack(stacks, slices, stack);
      TriangleCountAppend(rows, row);
      MulSucc(|rows|, perRow);
      AppendRow(rows, row, stacks, slices);
      rows := rows + [row];
      stack := stack + 1;
    }
    UnpackRows(rows, stacks, slices);
    if stacks > 0 && slices > 0 {
      assert 3 * (stacks * (2 * slices)) == 6 * stacks * slices;
    }
  }

  /** Adding the next stack's row keeps every row in place. */
  lemma AppendRow(rows: seq<seq<Triangle>>, row: seq<Triangle>, stacks: int, slices: int)
    requires forall st :: 0 <= st < |rows| ==> RowOk(rows[st], stacks, slices, st)
    requires RowOk(row, stacks, slices, |rows|)
    ensures forall st :: 0 <= st < |rows| + 1 ==> RowOk((rows + [row])[st], stacks, slices, st)
  {
    forall st | 0 <= st < |rows| + 1
      ensures RowOk((rows + [row])[st], stacks, slices, st)
    {
      if st < |rows| {
        assert (rows + [row])[st] == rows[st];
      }
    }
  }

  lemma MulSucc(n: int, m: int)
    ensures (n + 1) * m == n * m + m
  {
  }

  /** The rows of `RowOk` taken together. */
  lemma UnpackRows(rows: seq<seq<Triangle>>, stacks: int, slices: int)
    requires forall st :: 0 <= st < |rows| ==> RowOk(rows[st], stacks, slices, st)
    ensures forall stack :: 0 <= stack < |rows| ==> |rows[stack]| == if slices > 0 then 2 * slices else 0
    ensures forall stack, k :: 0 <= stack < |rows| && 0 <= k < |rows[stack]| ==>
      rows[stack][k] == QuadTriangle(slices, stack, k / 2, k % 2 == 1)
    ensures forall stack, k :: 0 <= stack < |rows| && 0 <= k < |rows[stack]| ==>
      Proper(rows[stack][k], NumVerts(stacks, slices))
  {
  }

  /** The inner loop of `draw_sphere`: the quads of one stack. */
  method DrawStack(stacks: int, slices: int, stack: int) returns (row: seq<Triangle>)
    requires 0 <= stack < stacks
    ensures RowOk(row, stacks, slices, stack)
  {
    row := [];
    var slice := 0;
    while slice < slices
      invariant 0 <= slice <= if slices > 0 then slices else 0
      invariant |row| == 2 * slice
      invariant forall k :: 0 <= k < |row| ==> row[k] == QuadTriangle(slices, stack, k / 2, k % 2 == 1)
      invariant forall k :: 0 <= k < |row| ==> Proper(row[k], NumVerts(stacks, slices))
    {
      var p := stack * (slices + 1) + slice;
      var q := (stack + 1) * (slices + 1) + slice;
      var r := (stack + 1) * (slices + 1) + slice + 1;
      var s := stack * (slices + 1) + slice + 1;
      TrianglesWellFormed(stacks, slices, stack, slice);
      row := row + [Triangle(p, q, r), Triangle(p, r, s)];
      slice := slice + 1;
    }
  }

  /** Both call sites draw the sphere `init` generated: 16 stacks and 16
      slices, 289 slots, 512 triangles and so 1536 vertices. */
  lemma DemoSphere()
    ensures NumVerts(16, 16) == 289
    ensures forall stack, slice, second: bool :: 0 <= stack < 16 && 0 <= slice < 16 ==>
      Proper(QuadTriangle(16, stack, slice, second), 289)
  {
    forall stack, slice, second: bool | 0 <= stack < 16 && 0 <= slice < 16
      ensures Proper(QuadTriangle(16, stack, slice, second), 289)
    {
      TrianglesWellFormed(16, 16, stack, slice);
    }
  }

  /** Every triangle of a well-formed sphere references three distinct,
      existing slots, and the two triangles of a quad share the diagonal
      from (stack, slice) to (stack + 1, slice + 1). */
  lemma {:induction false} TrianglesWellFormed(stacks: int, slices: int, stack: int, slice: int)
    requires 0 <= stack < stacks && 0 <= slice < slices
    ensures Proper(QuadTriangle(slices, stack, slice, false), NumVerts(stacks, slices))
    ensures Proper(QuadTriangle(slices, stack, slice, true), NumVerts(stacks, slices))
    ensures QuadTriangle(slices, stack, slice, false).a == QuadTriangle(slices, stack, slice, true).a
    ensures QuadTriangle(slices, stack, slice, false).c == QuadTriangle(slices, stack, slice, true).b
  {
    IndexInRange(stacks, slices, stack, slice);
    IndexInRange(stacks, slices, stack + 1, slice);
    IndexInRange(stacks, slices, stack + 1, slice + 1);
    IndexInRange(stacks, slices, stack, slice + 1);
    var p := VertexIndex(slices, stack, slice);
    var q := VertexIndex(slices, stack + 1, slice);
    var r := VertexIndex(slices, stack + 1, slice + 1);
    var s := VertexIndex(slices, stack, slice + 1);
    if p == q { IndexInjective(slices, stack, slice, stack + 1, slice); }
    if q == r { IndexInjective(slices, stack + 1, slice, stack + 1, slice + 1); }
    if p == r { IndexInjective(slices, stack, slice, stack + 1, slice + 1); }
    if r == s { IndexInjective(slices, stack + 1, slice + 1, stack, slice + 1); }
    if p == s { IndexInjective(slices, stack, slice, stack, slice + 1); }
  }

  /** Every grid point is a corner of some drawn triangle: the triangles
      cover the whole vertex array. */
  lemma EveryVertexDrawn(stacks: int, slices: int, stack: int, slice: int)
    requires stacks >= 1 && slices >= 1 && OnGrid(stacks, slices, stack, slice)
    ensures exists st, sl, second: bool ::
      0 <= st < stacks && 0 <= sl < slices &&
      VertexIndex(slices, stack, slice) in
        {QuadTriangle(slices, st, sl, second).a, QuadTriangle(slices, st, sl, second).b,
         QuadTriangle(slices, st, sl, second).c}
  {
    var st := if stack < stacks then stack else stack - 1;
    var sl := if slice < slices then slice else slice - 1;
    var t1 := QuadTriangle(slices, st, sl, false);
    var t2 := QuadTriangle(slices, st, sl, true);
    if stack < stacks && slice == slices {
      assert VertexIndex(slices, stack, slice) == t2.c;
    }
  }
}

=== FILE: surface.dfy ===
/** The vertex streams that `drawGrid` and `drawSineWave` emit, in both
    sine-wave demos, and the render set-up each frame chooses.

    A surface over [-1, 1] x [-1, 1] is drawn as `tess` quad strips; strip j
    visits, for i = 0 .. tess, grid point (i, j) and then (i, j + 1). Each
    vertex is preceded by at most one attribute: with lighting on, a normal
    when lighting is done by the fixed pipeline and otherwise a colour
    computed on the CPU from the normal; with lighting off, nothing.

    A vertex is recorded by its grid point, its model-space position and
    its attribute. The eye-space transform and the CPU lighting formula that
    turn these into GL calls are not modelled: a colour attribute records
    the (unnormalised) model-space normal it is computed from. */
module Surface {
  import opened Geometry
  import opened Toggles
  import SineWaveKeys
  import TutorialKeys

  /** The call made before `glVertex3fv`: `glNormal3fv`, `glColor3fv` of a
      colour lit on the CPU from `normal`, or neither. */
  datatype Attribute = NormalAttr(normal: Vec3) | ColourAttr(normal: Vec3) | NoAttr

  datatype Vertex = Vertex(col: int, row: int, pos: Vec3, attr: Attribute)

  /** The per-vertex attribute choice, which neither demo lets the shader
      toggle influence. */
  function AttributeFor(lighting: bool, fixed: bool, n: Vec3): (a: Attribute)
    ensures a.NormalAttr? <==> lighting && fixed
    ensures a.ColourAttr? <==> lighting && !fixed
    ensures !a.NoAttr? ==> a.normal == n
  {
    if !lighting then NoAttr
    else if fixed then NormalAttr(n)
    else ColourAttr(n)
  }

  /** Model-space coordinate of grid line i: `-1.0 + i * stepSize` with
      `stepSize = 2.0 / tess`. */
  function GridCoord(tess: int, i: int): real
    requires tess > 0
  {
    -1.0 + (i as real) * (2.0 / (tess as real))
  }

  /** Grid lines run from -1 to 1 in equal increasing steps of 2 / tess. */
  lemma GridCoordSpans(tess: int, i: int, j: int)
    requires tess > 0
    ensures GridCoord(tess, 0) == -1.0
    ensures GridCoord(tess, tess) == 1.0
    ensures GridCoord(tess, i + 1) - GridCoord(tess, i) == 2.0 / (tess as real)
    ensures i < j ==> GridCoord(tess, i) < GridCoord(tess, j)
  {
    var step := 2.0 / (tess as real);
    assert (tess as real) * step == 2.0;
    assert ((i + 1) as real) * step == (i as real) * step + step;
    if i < j {
      assert (j as real) * step - (i as real) * step == ((j - i) as real) * step;
    }
  }

  /** Quad-strip emission order over a tess x tess grid: `tess` strips
      (none when tess <= 0), each of 2 * (tess + 1) vertices, where the k-th
      vertex of strip j is grid point (k / 2, j + k % 2). */
  predicate StripOrder(strips: seq<seq<Vertex>>, tess: int)
  {
    && |strips| == (if tess > 0 then tess else 0)
    && (forall j :: 0 <= j < |strips| ==> |strips[j]| == 2 * (tess + 1))
    && (forall j, k :: 0 <= j < |strips| && 0 <= k < |strips[j]| ==>
          strips[j][k].col == k / 2 && strips[j][k].row == j + k % 2)
  }

  /** Every emitted vertex carries the attribute the lighting flags select. */
  predicate AttributesFollow(strips: seq<seq<Vertex>>, lighting: bool, fixed: bool)
  {
    forall j, k :: 0 <= j < |strips| && 0 <= k < |strips[j]| ==>
      && (strips[j][k].attr.NormalAttr? <==> lighting && fixed)
      && (strips[j][k].attr.ColourAttr? <==> lighting && !fixed)
  }

  /** The strips hold 2 * tess * (tess + 1) vertices in all. */
  function CountVertices(strips: seq<seq<Vertex>>): nat
  {
    if |strips| == 0 then 0 else |strips[|strips| - 1]| + CountVertices(strips[..|strips| - 1])
  }

  lemma {:induction false} StripVertexCount(strips: seq<seq<Vertex>>, tess: int)
    requires StripOrder(strips, tess) && tess > 0
    ensures CountVertices(strips) == 2 * tess * (tess + 1)
  {
    var n := |strips|;
    var prefix := n;
    while prefix > 0
      invariant 0 <= prefix <= n
      invariant CountVertices(strips[..n - prefix]) == 2 * (n - prefix) * (tess + 1)
      decreases prefix
    {
      var m := n - prefix;
      assert strips[..m + 1][..m] == strips[..m];
      assert |strips[..m + 1][m]| == 2 * (tess + 1);
      assert 2 * (m + 1) * (tess + 1) == 2 * m * (tess + 1) + 2 * (tess + 1);
      prefix := prefix - 1;
    }
    assert strips[..n] == strips;
  }

  // ---------------------------------------------------------------- grid

  const Up: Vec3 := Vec3(0.0, 1.0, 0.0)

  /** The flat grid at grid point (i, row): height 0, normal straight up. */
  function GridVertex(tess: int, lighting: bool, fixed: bool, i: int, row: int): Vertex
    requires tess > 0
  {
    Vertex(i, row, Vec3(GridCoord(tess, i), 0.0, GridCoord(tess, row)), AttributeFor(lighting, fixed, Up))
  }

  /** The two nested loops of `drawGrid`. */
  method DrawGrid(tess: int, lighting: bool, fixed: bool) returns (strips: seq<seq<Vertex>>)
    ensures StripOrder(strips, tess)
    ensures forall j, k :: 0 <= j < |strips| && 0 <= k < |strips[j]| ==>
      strips[j][k] == GridVertex(tess, lighting, fixed, k / 2, j + k % 2)
  {
    strips := [];
    if tess <= 0 {
      return;
    }
    var step := 2.0 / (tess as real);
    var n := Vec3(0.0, 0.0, 0.0);
    var j := 0;
    while j < tess
      invariant 0 <= j <= tess
      invariant |strips| == j
      invariant forall j' :: 0 <= j' < j ==> |strips[j']| == 2 * (tess + 1)
      invariant forall j', k :: 0 <= j' < j && 0 <= k < |strips[j']| ==>
        strips[j'][k] == GridVertex(tess, lighting, fixed, k / 2, j' + k % 2)
    {
      var strip: seq<Vertex> := [];
      var i := 0;
      while i <= tess
        invariant 0 <= i <= tess + 1
        invariant |strip| == 2 * i
        invariant forall k :: 0 <= k < |strip| ==>
          strip[k] == GridVertex(tess, lighting, fixed, k / 2, j + k % 2)
      {
        var x := -1.0 + (i as real) * step;
        var z := -1.0 + (j as real) * step;
        if lighting {
          n := Up;
        }
        strip := strip + [Vertex(i, j, Vec3(x, 0.0, z), AttributeFor(lighting, fixed, n))];
        z := z + step;
        assert z == GridCoord(tess, j + 1) by {
          assert ((j + 1) as real) * step == (j as real) * step + step;
        }
        strip := strip + [Vertex(i, j + 1, Vec3(x, 0.0, z), AttributeFor(lighting, fixed, n))];
        i := i + 1;
      }
      strips := strips + [strip];
      j := j + 1;
    }
  }

  // ----------------------------------------------------------- sine wave

  /** The wave's amplitudes, wave numbers and angular velocities, with
      `sinf`/`cosf` left uninterpreted. Both demos use A = 0.25, k = 2*pi
      and w = 0.25 for both terms; 2*pi is not written out, so `k1`/`k2`
      are whatever the caller supplies. */
  datatype Wave = Wave(a1: real, k1: real, w1: real, a2: real, k2: real, w2: real, trig: TrigFns)

  predicate SourceConstants(w: Wave)
  {
    w.a1 == 0.25 && w.w1 == 0.25 && w.a2 == 0.25 && w.w2 == 0.25 && w.k1 == w.k2
  }

  /** `A1 * sinf(k1 * x + w1 * t)`, the travelling sine along x. */
  function AlongX(w: Wave, t: real, x: real): real
  {
    w.a1 * w.trig.sin(w.k1 * x + w.w1 * t)
  }

  /** `A2 * sinf(k2 * z + w2 * t)`, the second sine along z (3D only). */
  function AlongZ(w: Wave, t: real, z: real): real
  {
    w.a2 * w.trig.sin(w.k2 * z + w.w2 * t)
  }

  /** `- A1 * k1 * cosf(k1 * x + w1 * t)`, minus the slope along x. */
  function SlopeX(w: Wave, t: real, x: real): real
  {
    -w.a1 * w.k1 * w.trig.cos(w.k1 * x + w.w1 * t)
  }

  /** `- A2 * k2 * cosf(k2 * z + w2 * t)`, minus the slope along z. */
  function SlopeZ(w: Wave, t: real, z: real): real
  {
    -w.a2 * w.k2 * w.trig.cos(w.k2 * z + w.w2 * t)
  }

  /** Height of the wave at (x, z) and time t: one travelling sine along x
      in 2D, plus a second along z in 3D. */
  function Height(w: Wave, dim: int, t: real, x: real, z: real): real
  {
    if dim == 2 then AlongX(w, t, x) else AlongX(w, t, x) + AlongZ(w, t, z)
  }

  /** The unnormalised normal (-dy/dx, 1, -dy/dz) of the wave at (x, z). */
  function WaveNormal(w: Wave, dim: int, t: real, x: real, z: real): Vec3
  {
    Vec3(SlopeX(w, t, x), 1.0, if dim == 2 then 0.0 else SlopeZ(w, t, z))
  }

  /** The wave surface at grid point (i, row). */
  function WaveVertex(tess: int, w: Wave, dim: int, t: real, lighting: bool, fixed: bool,
                      i: int, row: int): Vertex
    requires tess > 0
  {
    var x := GridCoord(tess, i);
    var z := GridCoord(tess, row);
    Vertex(i, row, Vec3(x, Height(w, dim, t, x, z), z), AttributeFor(lighting, fixed, WaveNormal(w, dim, t, x, z)))
  }

  /** In 2D the wave does not vary along z, its normal has y = 1 and z = 0,
      and so the two vertices of a strip step share height and attribute. */
  lemma TwoDimensionalWave(tess: int, w: Wave, t: real, lighting: bool, fixed: bool, i: int, j: int)
    requires tess > 0
    ensures WaveNormal(w, 2, t, GridCoord(tess, i), GridCoord(tess, j)).y == 1.0
    ensures WaveNormal(w, 2, t, GridCoord(tess, i), GridCoord(tess, j)).z == 0.0
    ensures WaveVertex(tess, w, 2, t, lighting, fixed, i, j).pos.y
         == WaveVertex(tess, w, 2, t, lighting, fixed, i, j + 1).pos.y
    ensures WaveVertex(tess, w, 2, t, lighting, fixed, i, j).attr
         == WaveVertex(tess, w, 2, t, lighting, fixed, i, j + 1).attr
  {
  }

  /** A sine satisfying sin^2 + cos^2 = 1 lies in [-1, 1]. */
  lemma UnitBound(sn: real, cs: real)
    requires sn * sn + cs * cs == 1.0
    ensures -1.0 <= sn <= 1.0
  {
    assert (sn - 1.0) * (sn + 1.0) <= 0.0;
  }

  /** With the demos' amplitudes of 0.25 and exact trigonometry, the 2D
      wave stays within 0.25 of the grid plane and the 3D wave within 0.5. */
  lemma WaveHeightBounded(w: Wave, dim: int, t: real, x: real, z: real)
    requires SourceConstants(w) && Pythagorean(w.trig)
    ensures dim == 2 ==> -0.25 <= Height(w, dim, t, x, z) <= 0.25
    ensures dim != 2 ==> -0.5 <= Height(w, dim, t, x, z) <= 0.5
  {
    var ax, az := w.k1 * x + w.w1 * t, w.k2 * z + w.w2 * t;
    UnitBound(w.trig.sin(ax), w.trig.cos(ax));
    UnitBound(w.trig.sin(az), w.trig.cos(az));
  }

  /** One pass of the inner loop of `drawSineWave`: the vertex at (i, j)
      and the one a step further along z. As in the source, the second
      vertex keeps the height and normal of the first and recomputes them
      only when `dim == 3`; the contract shows that this reuse still gives
      the wave's own height and normal at both grid points. `n` is the
      normal left over from the previous pass, which is only read when
      lighting is on, after it has been overwritten. */
  method WaveStep(tess: int, step: real, w: Wave, dim: int, t: real, lighting: bool, fixed: bool,
                  i: int, j: int, n: Vec3)
    returns (first: Vertex, second: Vertex, n': Vec3)
    requires tess > 0 && step == 2.0 / (tess as real)
    requires dim == 2 || dim == 3
    ensures first == WaveVertex(tess, w, dim, t, lighting, fixed, i, j)
    ensures second == WaveVertex(tess, w, dim, t, lighting, fixed, i, j + 1)
  {
    var x := -1.0 + (i as real) * step;
    var z := -1.0 + (j as real) * step;
    assert x == GridCoord(tess, i) && z == GridCoord(tess, j);
    var y := 0.0;
    n' := n;
    if dim == 2 {
      y := AlongX(w, t, x);
      if lighting {
        n' := Vec3(SlopeX(w, t, x), 1.0, 0.0);
      }
    } else if dim == 3 {
      y := AlongX(w, t, x) + AlongZ(w, t, z);
      if lighting {
        n' := Vec3(SlopeX(w, t, x), 1.0, SlopeZ(w, t, z));
      }
    }
    first := Vertex(i, j, Vec3(x, y, z), AttributeFor(lighting, fixed, n'));
    z := z + step;
    assert z == GridCoord(tess, j + 1) by {
      assert ((j + 1) as real) * step == (j as real) * step + step;
    }
    if dim == 3 {
      y := AlongX(w, t, x) + AlongZ(w, t, z);
      if lighting {
        n' := n'.(z := SlopeZ(w, t, z));
      }
    }
    second := Vertex(i, j + 1, Vec3(x, y, z), AttributeFor(lighting, fixed, n'));
  }

  /** The two nested loops of `drawSineWave`. */
  method DrawSineWave(tess: int, w: Wave, dim: int, t: real, lighting: bool, fixed: bool)
    returns (strips: seq<seq<Vertex>>)
    requires dim == 2 || dim == 3
    ensures StripOrder(strips, tess)
    ensures forall j, k :: 0 <= j < |strips| && 0 <= k < |strips[j]| ==>
      strips[j][k] == WaveVertex(tess, w, dim, t, lighting, fixed, k / 2, j + k % 2)
  {
    strips := [];
    if tess <= 0 {
      return;
    }
    var step := 2.0 / (tess as real);
    var n := Vec3(0.0, 0.0, 0.0);
    var j := 0;
    while j < tess
      invariant 0 <= j <= tess
      invariant |strips| == j
      invariant forall j' :: 0 <= j' < j ==> |strips[j']| == 2 * (tess + 1)
      invariant forall j', k :: 0 <= j' < j && 0 <= k < |strips[j']| ==>
        strips[j'][k] == WaveVertex(tess, w, dim, t, lighting, fixed, k / 2, j' + k % 2)
    {
      var strip: seq<Vertex> := [];
      var i := 0;
      while i <= tess
        invariant 0 <= i <= tess + 1
        invariant |strip| == 2 * i
        invariant forall k :: 0 <= k < |strip| ==>
          strip[k] == WaveVertex(tess, w, dim, t, lighting, fixed, k / 2, j + k % 2)
      {
        var first, second;
        first, second, n := WaveStep(tess, step, w, dim, t, lighting, fixed, i, j, n);
        strip := strip + [first, second];
        i := i + 1;
      }
      strips := strips + [strip];
      j := j + 1;
    }
  }

  // ------------------------------------------------------- frame set-up

  datatype ShadeModel = Smooth | FlatShade

  /** How a frame is lit: by the shader program (uniforms are set from the
      flags), by the fixed pipeline's GL_LIGHTING, or with GL_LIGHTING off
      and cyan as the current colour. In the last case a vertex that
      carries a CPU colour (lighting on, `fixed` off) is drawn in that
      colour instead of cyan. */
  datatype Pipeline = ShaderProgram | FixedFunction(shade: ShadeModel) | GlLightingOff

  /** What one call of `drawGrid` or `drawSineWave` produces. */
  datatype Frame = Frame(pipeline: Pipeline, polygonMode: PolygonMode, strips: seq<seq<Vertex>>)

  /** The set-up at the head of `drawGrid` and `drawSineWave` in the later
      demo: the shader wins, then fixed-function lighting if both lighting
      and `fixed` are on; the grid always shades smoothly, the wave flat
      when the flat flag is on. */
  function LaterPipeline(g: SineWaveKeys.Global): (p: Pipeline)
    ensures p == ShaderProgram <==> g.Has(SineWaveKeys.UseShaders)
    ensures p.FixedFunction? <==>
      !g.Has(SineWaveKeys.UseShaders) && g.Has(SineWaveKeys.Lighting) && g.Has(SineWaveKeys.FixedLighting)
    ensures p.FixedFunction? ==> (p.shade == FlatShade <==> g.wave && g.Has(SineWaveKeys.FlatShading))
  {
    if g.Has(SineWaveKeys.UseShaders) then ShaderProgram
    else if g.Has(SineWaveKeys.Lighting) && g.Has(SineWaveKeys.FixedLighting) then
      FixedFunction(if g.wave && g.Has(SineWaveKeys.FlatShading) then FlatShade else Smooth)
    else GlLightingOff
  }

  /** `display` of the later demo: the grid or the wave, drawn with the
      current flags. The vertex attributes depend on the lighting and
      `fixed` flags only: with shaders on, a CPU colour is still computed
      for every vertex when `fixed` is off. */
  method DrawLater(g: SineWaveKeys.Global, w: Wave) returns (f: Frame)
    requires g.wave ==> g.waveDim == 2 || g.waveDim == 3
    ensures f.pipeline == LaterPipeline(g)
    ensures f.polygonMode == (if g.Has(SineWaveKeys.Wireframe) then Line else Fill)
    ensures StripOrder(f.strips, g.tess)
    ensures AttributesFollow(f.strips, g.Has(SineWaveKeys.Lighting), g.Has(SineWaveKeys.FixedLighting))
    ensures !g.wave ==> forall j, k :: 0 <= j < |f.strips| && 0 <= k < |f.strips[j]| ==>
      f.strips[j][k].pos.y == 0.0
    ensures !g.wave ==> forall j, k :: 0 <= j < |f.strips| && 0 <= k < |f.strips[j]| ==>
      g.tess > 0 && f.strips[j][k] == GridVertex(g.tess, g.Has(SineWaveKeys.Lighting),
                                                 g.Has(SineWaveKeys.FixedLighting), k / 2, j + k % 2)
    ensures g.wave ==> forall j, k :: 0 <= j < |f.strips| && 0 <= k < |f.strips[j]| ==>
      g.tess > 0 && f.strips[j][k] == WaveVertex(g.tess, w, g.waveDim, g.t, g.Has(SineWaveKeys.Lighting),
                                                 g.Has(SineWaveKeys.FixedLighting), k / 2, j + k % 2)
  {
    var lighting := g.Has(SineWaveKeys.Lighting);
    var fixed := g.Has(SineWaveKeys.FixedLighting);
    var strips;
    if !g.wave {
      strips := DrawGrid(g.tess, lighting, fixed);
    } else {
      strips := DrawSineWave(g.tess, w, g.waveDim, g.t, lighting, fixed);
    }
    f := Frame(LaterPipeline(g), if g.Has(SineWaveKeys.Wireframe) then Line else Fill, strips);
  }

  /** The set-up of the tutorial's `drawGrid` and `drawSineWave`: lit by the
      fixed pipeline, smoothly, exactly when lighting and `fixed` are both
      on; otherwise GL lighting is off, with cyan as the current colour. */
  function TutorialPipeline(g: TutorialKeys.Global): (p: Pipeline)
    ensures p != ShaderProgram
    ensures p.FixedFunction? <==> g.Has(TutorialKeys.Lighting) && g.Has(TutorialKeys.FixedLighting)
    ensures p.FixedFunction? ==> p.shade == Smooth
  {
    if g.Has(TutorialKeys.Lighting) && g.Has(TutorialKeys.FixedLighting) then FixedFunction(Smooth)
    else GlLightingOff
  }

  /** `display` of the tutorial. */
  method DrawTutorial(g: TutorialKeys.Global, w: Wave) returns (f: Frame)
    requires g.shape == TutorialKeys.Wave ==> g.waveDim == 2 || g.waveDim == 3
    ensures f.pipeline == TutorialPipeline(g)
    ensures f.polygonMode == g.polygonMode
    ensures StripOrder(f.strips, g.tess)
    ensures AttributesFollow(f.strips, g.Has(TutorialKeys.Lighting), g.Has(TutorialKeys.FixedLighting))
    ensures g.shape == TutorialKeys.Grid ==> forall j, k :: 0 <= j < |f.strips| && 0 <= k < |f.strips[j]| ==>
      f.strips[j][k].pos.y == 0.0
    ensures g.shape == TutorialKeys.Grid ==> forall j, k :: 0 <= j < |f.strips| && 0 <= k < |f.strips[j]| ==>
      g.tess > 0 && f.strips[j][k] == GridVertex(g.tess, g.Has(TutorialKeys.Lighting),
                                                 g.Has(TutorialKeys.FixedLighting), k / 2, j + k % 2)
    ensures g.shape == TutorialKeys.Wave ==> forall j, k :: 0 <= j < |f.strips| && 0 <= k < |f.strips[j]| ==>
      g.tess > 0 && f.strips[j][k] == WaveVertex(g.tess, w, g.waveDim, g.t, g.Has(TutorialKeys.Lighting),
                                                 g.Has(TutorialKeys.FixedLighting), k / 2, j + k % 2)
  {
    var lighting := g.Has(TutorialKeys.Lighting);
    var fixed := g.Has(TutorialKeys.FixedLighting);
    var strips;
    if g.shape == TutorialKeys.Grid {
      strips := DrawGrid(g.tess, lighting, fixed);
    } else {
      strips := DrawSineWave(g.tess, w, g.waveDim, g.t, lighting, fixed);
    }
    f := Frame(TutorialPipeline(g), g.polygonMode, strips);
  }
}

=== FILE: toggles.dfy ===
/** The integer settings that both sine-wave demos change from the keyboard
    in the same way: the tessellation level ('+' doubles, '-' halves with a
    floor of 8) and the wave dimension ('z' cycles 2 -> 3 -> 2), plus the
    line/fill polygon mode. */
module Toggles {

  /** Polygon rasterisation mode: outlines (GL_LINE) or filled (GL_FILL). */
  datatype PolygonMode = Line | Fill

  function FlipPolygonMode(m: PolygonMode): (r: PolygonMode)
    ensures r != m
  {
    if m == Line then Fill else Line
  }

  lemma FlipPolygonModeTwice(m: PolygonMode)
    ensures FlipPolygonMode(FlipPolygonMode(m)) == m
  {
  }

  /** Negating one boolean of a record whose booleans are held as the set
      of those that are true: exactly `f` changes membership. */
  function Toggle<F(==,!new)>(on: set<F>, f: F): (r: set<F>)
    ensures f in r <==> f !in on
    ensures forall f2 :: f2 != f ==> (f2 in r <==> f2 in on)
  {
    if f in on then on - {f} else on + {f}
  }

  lemma ToggleTwice<F(!new)>(on: set<F>, f: F)
    ensures Toggle(Toggle(on, f), f) == on
  {
  }

  /** The smallest tessellation the '-' key allows, and the initial one. */
  const MinTess: int := 8

  function Pow2(k: nat): (r: nat)
    ensures r >= 1
  {
    if k == 0 then 1 else 2 * Pow2(k - 1)
  }

  /** The tessellation levels the keys can produce: 8, 16, 32, ...
      Defined by repeated halving, so that it can be unfolded one key at a
      time; TessLevelIsPow2 and Pow2IsTessLevel connect it to 8 * 2^k. */
  predicate TessLevel(t: int)
    decreases t
  {
    t == MinTess || (t > MinTess && t % 2 == 0 && TessLevel(t / 2))
  }

  lemma {:induction false} TessLevelIsPow2(t: int)
    requires TessLevel(t)
    ensures exists k: nat :: t == MinTess * Pow2(k)
    decreases t
  {
    if t == MinTess {
      assert t == MinTess * Pow2(0);
    } else {
      TessLevelIsPow2(t / 2);
      var k: nat :| t / 2 == MinTess * Pow2(k);
      assert t == MinTess * Pow2(k + 1);
    }
  }

  lemma {:induction false} Pow2IsTessLevel(k: nat)
    ensures TessLevel(MinTess * Pow2(k))
  {
    if k > 0 {
      Pow2IsTessLevel(k - 1);
      var half := MinTess * Pow2(k - 1);
      assert MinTess * Pow2(k) == 2 * half;
      assert (2 * half) / 2 == half;
    }
  }

  /** '+': `tess *= 2` (unbounded here; see README for the 32-bit overflow). */
  function DoubleTess(t: int): (r: int)
    ensures TessLevel(t) ==> TessLevel(r) && r > t
  {
    assert TessLevel(t) ==> (2 * t) / 2 == t;
    t * 2
  }

  /** '-': `tess /= 2; if (tess < 8) tess = 8;`. C truncates toward zero
      and Dafny's `/` rounds down; the two differ only for negative `t`,
      where both quotients are below 8 and the clamp gives 8 either way. */
  function HalveTess(t: int): (r: int)
    ensures r >= MinTess
    ensures t >= 2 * MinTess ==> 2 * r <= t < 2 * r + 2
    ensures t < 2 * MinTess ==> r == MinTess
    ensures TessLevel(t) ==> TessLevel(r) && r <= t
  {
    var h := t / 2;
    if h < MinTess then MinTess else h
  }

  /** '-' undoes '+' on every tessellation the demos can hold. */
  lemma HalveUndoesDouble(t: int)
    requires t >= MinTess
    ensures HalveTess(DoubleTess(t)) == t
  {
  }

  /** '+' undoes '-' except at the floor, where '-' does nothing. */
  lemma DoubleUndoesHalve(t: int)
    requires TessLevel(t) && t > MinTess
    ensures DoubleTess(HalveTess(t)) == t
  {
  }

  /** 'z': `waveDim++; if (waveDim > 3) waveDim = 2;`. */
  function NextWaveDim(d: int): (r: int)
    ensures r <= 3
    ensures d >= 2 ==> r >= 2
    ensures d == 2 || d == 3 ==> r == 5 - d
  {
    if d + 1 > 3 then 2 else d + 1
  }
}

=== FILE: tutorial_keys.dfy ===
/** The keyboard state machine of the earlier sine-wave tutorial
    (examples/6-tutorial/sinewave3D-glm.cpp). It differs from the later demo:
    the shape is an enum, the polygon mode is an enum toggled by 'm', 'a'
    toggles the animation whatever the shape, 's' always stops the
    animation, 'o' toggles the on-screen display on its own, and 'v' only
    prints a message. As in SineWaveKeys, the booleans that one key each
    negates are held as the set of those that are true. */
module TutorialKeys {
  import opened Toggles

  datatype Shape = Grid | Wave

  /** The booleans negated by 'l', 'f', 'n', 'c', 'o' and '4'. */
  datatype FlagName = Lighting | FixedLighting | DrawNormals | ConsolePM | DisplayOSD | MultiView

  datatype Global = Global(
    shape: Shape, animate: bool, t: real, lastT: real,
    polygonMode: PolygonMode, on: set<FlagName>, twoside: bool,
    tess: int, waveDim: int)
  {
    predicate Has(f: FlagName) { f in on }
  }

  /** Start-up values: grid, outlines, only lighting on. */
  const Initial: Global := Global(Grid, false, 0.0, 0.0, Line, {Lighting}, false, 8, 2)

  datatype KeyOutcome = Exit | Continue(state: Global)

  datatype Command =
    | Quit | ToggleAnimate | ToggleFlag(flag: FlagName) | TogglePolygonMode
    | ToggleShape | VboMessage | FinerTess | CoarserTess | NextDimension | NoCommand

  const Escape: char := 27 as char

  predicate FlagKey(key: char)
  {
    key == 'l' || key == 'f' || key == 'n' || key == 'c' || key == 'o' || key == '4'
  }

  predicate HandledKey(key: char)
  {
    FlagKey(key) || key == Escape || key == 'a' || key == 'm' || key == 's' || key == 'v'
    || key == '+' || key == '-' || key == 'z'
  }

  /** The `switch (key)` of `keyboard`. */
  function Decode(key: char): (c: Command)
    ensures c == Quit <==> key == Escape
    ensures c.ToggleFlag? <==> FlagKey(key)
    ensures c == NoCommand <==> !HandledKey(key)
    ensures c == ToggleFlag(Lighting) <==> key == 'l'
    ensures c == ToggleFlag(FixedLighting) <==> key == 'f'
    ensures c == ToggleFlag(DrawNormals) <==> key == 'n'
    ensures c == ToggleFlag(ConsolePM) <==> key == 'c'
    ensures c == ToggleFlag(DisplayOSD) <==> key == 'o'
    ensures c == ToggleFlag(MultiView) <==> key == '4'
    ensures c == ToggleAnimate <==> key == 'a'
    ensures c == TogglePolygonMode <==> key == 'm'
    ensures c == ToggleShape <==> key == 's'
    ensures c == VboMessage <==> key == 'v'
    ensures c == FinerTess <==> key == '+'
    ensures c == CoarserTess <==> key == '-'
    ensures c == NextDimension <==> key == 'z'
  {
    if key == Escape then Quit
    else if key == 'a' then ToggleAnimate
    else if key == 'l' then ToggleFlag(Lighting)
    else if key == 'f' then ToggleFlag(FixedLighting)
    else if key == 'm' then TogglePolygonMode
    else if key == 'n' then ToggleFlag(DrawNormals)
    else if key == 'c' then ToggleFlag(ConsolePM)
    else if key == 'o' then ToggleFlag(DisplayOSD)
    else if key == 's' then ToggleShape
    else if key == '4' then ToggleFlag(MultiView)
    else if key == 'v' then VboMessage
    else if key == '+' then FinerTess
    else if key == '-' then CoarserTess
    else if key == 'z' then NextDimension
    else NoCommand
  }

  /** The tutorial's invariant: only the tessellation and the dimension are
      constrained; animation may run while the grid is shown. */
  predicate Inv(g: Global)
  {
    TessLevel(g.tess) && (g.waveDim == 2 || g.waveDim == 3)
  }

  function OtherShape(s: Shape): (r: Shape)
    ensures r != s
  {
    if s == Grid then Wave else Grid
  }

  /** The effect of one decoded key; `now` is the elapsed time in seconds
      read from GLUT when 'a' starts the animation. */
  function Apply(g: Global, c: Command, now: real): (r: KeyOutcome)
    ensures r.Exit? <==> c == Quit
    ensures c.ToggleFlag? ==> r.Continue? && r.state.(on := g.on) == g
    ensures c.ToggleFlag? ==> forall f :: r.state.Has(f) <==> (g.Has(f) != (f == c.flag))
    ensures c == TogglePolygonMode ==>
      r.Continue? && r.state.polygonMode != g.polygonMode && r.state.(polygonMode := g.polygonMode) == g
    ensures c == ToggleShape ==> r == Continue(g.(shape := OtherShape(g.shape), animate := false))
    ensures c == ToggleAnimate ==>
      r == Continue(g.(animate := !g.animate, lastT := if g.animate then g.lastT else now))
    ensures c == FinerTess ==> r == Continue(g.(tess := g.tess * 2))
    ensures c == CoarserTess ==> r == Continue(g.(tess := HalveTess(g.tess)))
    ensures c == NextDimension ==> r == Continue(g.(waveDim := NextWaveDim(g.waveDim)))
    ensures c == VboMessage || c == NoCommand ==> r == Continue(g)
    ensures Inv(g) && r.Continue? ==> Inv(r.state)
  {
    match c
    case Quit => Exit
    case ToggleAnimate =>
      var animate := !g.animate;
      Continue(g.(animate := animate, lastT := if animate then now else g.lastT))
    case ToggleFlag(f) => Continue(g.(on := Toggle(g.on, f)))
    case TogglePolygonMode => Continue(g.(polygonMode := FlipPolygonMode(g.polygonMode)))
    case ToggleShape => Continue(g.(shape := OtherShape(g.shape), animate := false))
    case VboMessage => Continue(g)
    case FinerTess => Continue(g.(tess := DoubleTess(g.tess)))
    case CoarserTess => Continue(g.(tess := HalveTess(g.tess)))
    case NextDimension => Continue(g.(waveDim := NextWaveDim(g.waveDim)))
    case NoCommand => Continue(g)
  }

  /** `keyboard(key, x, y)`. */
  function Keyboard(g: Global, key: char, now: real): (r: KeyOutcome)
    ensures r.Exit? <==> key == Escape
    ensures key == 'v' || !HandledKey(key) ==> r == Continue(g)
    ensures FlagKey(key) ==> r.Continue? && r.state.(on := g.on) == g
    ensures Inv(g) && r.Continue? ==> Inv(r.state)
  {
    Apply(g, Decode(key), now)
  }

  datatype KeyPress = KeyPress(key: char, now: real)

  function Run(g: Global, presses: seq<KeyPress>): KeyOutcome
    decreases |presses|
  {
    if |presses| == 0 then Continue(g)
    else match Keyboard(g, presses[0].key, presses[0].now)
      case Exit => Exit
      case Continue(g') => Run(g', presses[1..])
  }

  lemma InitialInv()
    ensures Inv(Initial)
  {
  }

  /** From start-up, every key sequence keeps the tessellation at 8 * 2^k
      and the dimension at 2 or 3. */
  lemma {:induction false} RunPreservesInv(g: Global, presses: seq<KeyPress>)
    requires Inv(g)
    ensures Run(g, presses).Continue? ==> Inv(Run(g, presses).state)
    decreases |presses|
  {
    if |presses| > 0 {
      var r := Keyboard(g, presses[0].key, presses[0].now);
      if r.Continue? {
        RunPreservesInv(r.state, presses[1..]);
      }
    }
  }

  /** Whatever keys are pressed from start-up, the tessellation is 8 * 2^k
      for some k and the wave dimension is 2 or 3. */
  lemma ReachableInv(presses: seq<KeyPress>)
    ensures Run(Initial, presses).Continue? ==> Inv(Run(Initial, presses).state)
    ensures Run(Initial, presses).Continue? ==>
      exists k: nat :: Run(Initial, presses).state.tess == MinTess * Pow2(k)
  {
    InitialInv();
    RunPreservesInv(Initial, presses);
    if Run(Initial, presses).Continue? {
      TessLevelIsPow2(Run(Initial, presses).state.tess);
    }
  }

  /** 'm' twice, and any flag key twice, restore the state. */
  lemma TogglesTwice(g: Global, k: char, now: real)
    requires k == 'm' || FlagKey(k)
    ensures Keyboard(Keyboard(g, k, now).state, k, now) == Continue(g)
  {
    if k == 'm' {
      FlipPolygonModeTwice(g.polygonMode);
    }
  }

  /** 's' twice restores the shape and leaves the animation stopped. */
  lemma ShapeTwice(g: Global, now: real)
    ensures Keyboard(Keyboard(g, 's', now).state, 's', now) == Continue(g.(animate := false))
  {
  }

  /** Unlike the later demo, this variant can animate while showing the
      grid: 'a' from start-up does it. */
  lemma AnimateWithoutWave()
    ensures Keyboard(Initial, 'a', 1.0).Continue?
    ensures Keyboard(Initial, 'a', 1.0).state.animate
    ensures Keyboard(Initial, 'a', 1.0).state.shape == Grid
  {
  }
}
